=== FILE: README.md ===
# LungMAP analytics core in Dafny

A functional model of the pure parts of the LungMAP image-analytics service:

- the SPARQL client (`lungmap_client/lungmap_utils.py`): flattening query bindings into rows, the per-query cardinality policies, identifier extraction from URIs, placeholder substitution into query text, S3 object-key construction and the naming and hashing of the files fetched from S3;
- the REST views (`analytics/api_views.py`): the read-through image cache of `LungmapImageDetail.retrieve`, the JPEG download with its 404 rule, the training-set assembly and model naming of `TrainAModelCreate.create`, and the per-anatomy sub-region count;
- the tables of `analytics/models.py` as immutable records in an abstract store with its integrity invariant, and the `Experiment.save` transition that overwrites metadata before writing;
- the experiment-list merge of the Angular `ExperimentListController`;
- the experiment-id rule of the preload script.

Python and JavaScript text operations are modelled with their library semantics:

- `split`, `join`, `replace`, ASCII `lower`, `hexdigest`;
- `os.path.splitext`, `basename` and `join` for POSIX paths.

SPARQL, S3, OpenCV/PIL, SHA-1, the date parser and the machine-learning pipeline are function-valued parameters. Their results are inputs, and the model states which inputs each one is applied to.

Modules, one per file:

- `Wrappers`: `Option` and `Result`.
- `Text`: find/split/join/replace/lower.
- `PosixPath`: rfind/splitext/basename/join.
- `Hex`: the hex rendering of a digest.
- `Lungmap`: the SPARQL client and the S3 fetch.
- `Records`: the tables, the store and `Experiment.save`.
- `Http`: responses.
- `ImageDetail`: the image cache and the JPEG view.
- `Training`: model creation.
- `AnatomyAggregation`: the per-anatomy count.
- `ExperimentList`: the JavaScript merge.
- `Preload`: the id rule.

Python exceptions are modelled as `Err` values:

- a missing binding variable (`KeyError`) is `MissingVariable`;
- a URI without the separator (`IndexError`) is `NoFragment`;
- the unbound local of the researcher query (`UnboundLocalError`) is `UnboundRow`;
- `{**None}` (`TypeError`) is `NotAMapping`.

The Django store is a record of tables held as sequences in retrieval order. `Records.Valid` collects what the schema enforces:

- column widths;
- primary keys and unique columns;
- foreign keys;
- the one-to-one link from a trained model to its image set;
- 32-bit integer columns.

Behaviour of the code worth knowing:

- Training a second model for an image set fails rather than replacing the first. The one-to-one `imageset` column raises an integrity error, and the view sets status 400 on its reply (`Training.Create`, `Records.InsertTrainedModel`); see "## Left out" for how that reply is rendered.
- `get_researcher_by_experiment` with zero bindings fails with an unbound `row` (`Lungmap.ResearcherOf`).
- `get_experiment_model_data` fails when the sample query has no bindings, because `get_sample_by_experiment` then returns `None` and `{**None}` raises (`Lungmap.ExperimentModelData`).
- Points are taken in retrieval order; nothing sorts them by their `order` column (`Records.PointsOf`, `Records.PointsOfConcat`).

## Model

| member | source | states |
|---|---|---|
| Text.Find | lungmap_client/lungmap_utils.py:39 | the position `split` cuts at is the leftmost occurrence of the separator; none means the separator does not occur |
| Text.Split | lungmap_client/lungmap_utils.py:39 | `str.split(sep)` yields at least one piece and no piece contains the separator |
| Text.JoinSplit | lungmap_client/lungmap_utils.py:39 | joining the pieces of a split with the same separator gives back the original text |
| Text.SplitJoin | lungmap_client/lungmap_utils.py:55 | for a separator that cannot overlap itself, splitting separator-free pieces joined by it gives back exactly those pieces |
| Text.FindIsFirst | lungmap_client/lungmap_utils.py:39 | find returns the leftmost occurrence whenever there is one |
| Text.ReplaceJoined | lungmap_client/lungmap_utils.py:55 | `replace` swaps every occurrence of a borderless placeholder for the replacement and keeps all text between occurrences |
| Text.ReplaceAbsent | lungmap_client/lungmap_utils.py:55 | a query without the placeholder is left exactly as it is |
| Text.SecondFieldBetween | lungmap_client/lungmap_utils.py:39 | `split(sep)[1]` is the text after the first separator, up to the next one or to the end |
| Text.SecondFieldExists | lungmap_client/lungmap_utils.py:39 | `split(sep)[1]` exists exactly when the separator occurs, so an IndexError is raised exactly when it does not |
| Text.Lower | lungmap_client/lungmap_utils.py:89 | lower-casing keeps the length and maps every upper-case ASCII letter to its lower-case form, leaving other characters alone |
| Text.LowerIsLower | lungmap_client/lungmap_utils.py:89 | a lower-cased `sex` has no upper-case letter, and lower-casing it again changes nothing |
| PosixPath.RFind | lungmap_client/lungmap_utils.py:108 | the index of the last occurrence of a character, or -1 when it does not occur |
| PosixPath.SplitExt | lungmap_client/lungmap_utils.py:108 | `splitext` gives root and extension whose concatenation is the path; the extension is empty or starts at the unique last dot of the last component that follows a non-dot character |
| PosixPath.Basename | lungmap_client/lungmap_utils.py:224 | `basename` is the separator-free suffix after the last `/`, or the whole path when there is no `/` |
| PosixPath.Join | lungmap_client/lungmap_utils.py:110 | `os.path.join` ends with its second argument after a directory prefix; an absolute second argument replaces the first; otherwise the first is kept in front and one `/` is put between exactly when the first is non-empty and does not already end in `/` |
| PosixPath.Join3Plain | lungmap_client/lungmap_utils.py:110 | for plain components the S3 key is `root/name/filename` |
| PosixPath.BasenameAfterDir | lungmap_client/lungmap_utils.py:224 | the basename of a directory prefix plus a separator-free name is that name |
| PosixPath.SplitExtAfterDir | lungmap_client/lungmap_utils.py:202 | splitting the extension off a path with a directory prefix splits it off the last component and keeps the prefix |
| PosixPath.JoinBasename | lungmap_client/lungmap_utils.py:223-224 | the basename of any path joined with a separator-free file name is that file name |
| PosixPath.JoinStemBasename | lungmap_client/lungmap_utils.py:228-229 | cutting the extension off a joined path and taking the basename gives the file name's own stem |
| Hex.HexDigest | lungmap_client/lungmap_utils.py:235 | `hexdigest` has two hex digits per byte |
| Hex.ParseHexDigest | lungmap_client/lungmap_utils.py:235 | the hex rendering loses nothing: reading it back gives the digest |
| Hex.HexDigestInjective | lungmap_client/lungmap_utils.py:235 | distinct digests never render to the same text |
| Hex.Sha1Hex | analytics/models.py:107-111 | a SHA-1 hexdigest is exactly 40 hex digits, the width of `image_orig_sha1`, and parses back to the digest |
| Lungmap.Value | lungmap_client/lungmap_utils.py:88 | reading `x[name]['value']` succeeds exactly when the variable is bound and raises KeyError otherwise |
| Lungmap.Fragment | lungmap_client/lungmap_utils.py:109 | `uri.split(sep)[1]` succeeds exactly when the separator occurs and is the second piece of the split |
| Lungmap.RowsOf | lungmap_client/lungmap_utils.py:103-120 | a per-binding loop succeeds exactly when every binding does, gives one row per binding in order, and otherwise fails with the first failing binding's error |
| Lungmap.ExperimentQueryFillsPlaceholder | lungmap_client/lungmap_utils.py:55 | every `EXPERIMENT_PLACEHOLDER` in a query is replaced by the experiment id and the rest of the query text is unchanged |
| Lungmap.PlaceholderBorderless | lungmap_client/lungmap_utils.py:55 | no proper prefix of `EXPERIMENT_PLACEHOLDER` is also its suffix, so its occurrences cannot overlap |
| Lungmap.ExperimentIdOf | lungmap_client/lungmap_utils.py:39 | an experiment id exists exactly when the binding has an `experiment` URI containing `#`, and is the text after the first `#` |
| Lungmap.ExperimentIds | lungmap_client/lungmap_utils.py:37-40 | the list has one id per binding, in binding order; each is the text between the first and second `#` of the URI; any binding without it fails the list |
| Lungmap.ListAllExperiments | lungmap_client/lungmap_utils.py:25-40 | a successful listing has as many ids as the endpoint returned bindings |
| Lungmap.SampleOf | lungmap_client/lungmap_utils.py:83-93 | zero bindings give no row and no warning; otherwise the row comes from the first binding only, with `sex` lower-cased, and a warning is raised exactly when there is more than one binding |
| Lungmap.ImageRowOf | lungmap_client/lungmap_utils.py:105-119 | an image row is built exactly when the binding has every variable and both URIs contain `owl#`, and it satisfies `ImageRowFrom` |
| Lungmap.ImageRows | lungmap_client/lungmap_utils.py:103-120 | one row per binding, in order; `name + ext == filename`; root and image id come after `owl#`; `s3key == join(root, name, filename)`; `experiment_id == root` |
| Lungmap.ImageKeyNames | lungmap_client/lungmap_utils.py:107-114 | for a plain file name, the basename of the key is the file name and the basename of the key without its extension is the file's stem |
| Lungmap.ProbeRowOf | lungmap_client/lungmap_utils.py:133-136 | a probe row is built exactly when `color` and `probe_label` are bound and carries just those two values |
| Lungmap.ProbeRows | lungmap_client/lungmap_utils.py:125-140 | one probe row per binding, in order |
| Lungmap.ExperimentTypeOf | lungmap_client/lungmap_utils.py:149-166 | more than one binding raises 'too many results', zero raises 'no results found', and exactly one yields `platform`, the formatted `release_date` and `experiment_type_label` |
| Lungmap.ResearcherOf | lungmap_client/lungmap_utils.py:176-186 | more than one binding raises 'too many results', zero fails with `row` unbound, and exactly one yields `researcher_label` and `site_label` |
| Lungmap.MergeModelData | lungmap_client/lungmap_utils.py:74 | the merged keys are the union of the three dictionaries; `experiment_id` is the argument; sample values override type values |
| Lungmap.MergedModelData | lungmap_client/lungmap_utils.py:72-75 | merging a type row and a sample row gives exactly the model-data keys, with platform and type label from the type row and `sex` from the sample |
| Lungmap.ExperimentModelData | lungmap_client/lungmap_utils.py:65-75 | a successful result has every model-data field, `experiment_id` equal to the argument, a lower-case `sex`, and values from the single type binding and the first sample binding; a type query without bindings fails with 'no results found' |
| Lungmap.ExperimentModelDataKeys | lungmap_client/lungmap_utils.py:65-75 | a successful result has exactly the model-data keys: the three type fields, the four sample fields and `experiment_id`, and nothing else |
| Lungmap.FetchImage | lungmap_client/lungmap_utils.py:201-237 | a fetch succeeds exactly when the download succeeds, the image decodes and both the TIFF and the JPEG encoder succeed; each failure is reported at the first step that fails, in that order; the original is named `basename(s3key)`, the JPEG `basename(stem) + '.jpg'`; both are encoded from the same RGB raster; the hash is the 40-digit hex SHA-1 of the TIFF bytes stored as the original |
| Lungmap.FetchedNamesFollowImageRow | lungmap_client/lungmap_utils.py:223-232 | the uploads fetched for an image row are named by the row's file name and by its stem plus `.jpg` |
| Records.FindExperiment | analytics/models.py:7-10 | an experiment is found by primary key exactly when one with that key is stored |
| Records.FindImage | analytics/api_views.py:90 | an image is found by primary key exactly when one with that key is stored |
| Records.AnatomyName | analytics/api_views.py:139 | `subregion.anatomy.name` is the name of the anatomy row the foreign key points at |
| Records.PutExperiment | analytics/models.py:37 | a row write succeeds exactly when every column fits its width; the row then holds the new values under its key, experiments with other keys are kept, and no other table changes |
| Records.SaveExperiment | analytics/models.py:30-39 | a failed metadata fetch propagates and writes nothing; after a successful fetch the save fails exactly when a fetched value is too wide for its column, and otherwise the row under `experiment_id` gets `platform`, `experiment_type` from `experiment_type_label`, and `sex` from the fetched metadata; no other experiment is lost and none is added besides the saved row, the other tables are unchanged and the store stays valid |
| Records.SaveModelData | analytics/models.py:33-37 | with the metadata in hand, the write fails exactly when a value is too wide for its column; otherwise the saved row under `experiment_id` holds `platform`, `experiment_type` from `experiment_type_label` and `sex` from it; no other experiment is lost and none is added besides the saved row, the other tables are unchanged and the store stays valid |
| Records.ExperimentKeysKept | analytics/models.py:37 | overwriting or inserting one experiment keeps every experiment key that existed, so no image loses its experiment |
| Records.PutImage | analytics/api_views.py:98 | saving an existing image succeeds exactly when its columns fit; only that image row changes and the store stays valid |
| Records.ImagesOfSet | analytics/api_views.py:121 | the set's images are exactly the stored images linked to it |
| Records.ImagesOfSetDistinct | analytics/api_views.py:121 | the set's images keep the distinct primary keys of the image table |
| Records.ImagesOfSetConcat | analytics/api_views.py:121 | the filter keeps table order and each matching image once: one image gives itself or nothing, and a table split in two gives the two results in sequence |
| Records.SubregionsOf | analytics/api_views.py:124 | an image's sub-regions are exactly the stored sub-regions that point at it |
| Records.SubregionsOfConcat | analytics/api_views.py:124 | the filter keeps table order and each matching sub-region once: one row gives itself or nothing, and a table split in two gives the two results in sequence |
| Records.PointsOf | analytics/api_views.py:132 | a sub-region's points are exactly the stored points that point at it |
| Records.PointsOfConcat | analytics/api_views.py:132 | points come in retrieval order, each matching point once: one row gives itself or nothing, and a table split in two gives the two results in sequence |
| Records.NextTrainedModelId | analytics/models.py:172-177 | a new trained model gets a key above every key in use |
| Records.InsertTrainedModel | analytics/models.py:172-173 | inserting a trained model fails exactly when the image set already has one; otherwise exactly one row is appended and the store stays valid |
| ImageDetail.Retrieve | analytics/api_views.py:86-110 | an unknown key is a 404; S3 is fetched exactly when the stored SHA-1 is None or `''`; a hit returns the image with the store unchanged; a failure sets status 400 with the store unchanged; a served miss stores the original, its SHA-1 and the JPEG together and changes nothing else |
| ImageDetail.RetrieveFetchesOnce | analytics/api_views.py:93-98 | after a miss has been served, a second request fetches nothing, writes nothing and returns the same image |
| ImageDetail.ImageJpeg | analytics/api_views.py:166-175 | 404 'image not yet cached' exactly when an image exists and its JPEG name is empty; otherwise the JPEG bytes |
| ImageDetail.JpegServedAfterRetrieve | analytics/api_views.py:170-175 | after a served miss the JPEG view returns the JPEG bytes that were fetched |
| Training.Polygon | analytics/api_views.py:132-135 | the mask has one `(x, y)` pair per point, in retrieval order |
| Training.Annotated | analytics/api_views.py:123-131 | the nested loops visit pairs of an image of the set and one of its sub-regions |
| Training.AnnotatedConcat | analytics/api_views.py:123-131 | the loops visit the images in order and, for each, every one of its sub-regions once in retrieval order: one image gives one pair per sub-region pointing at it, and a split image list gives the two visits in sequence |
| Training.AnnotatedCount | analytics/api_views.py:123-142 | the loops visit exactly as many sub-regions as hang off the set's images; images without sub-regions contribute nothing |
| Training.LabelledRows | analytics/api_views.py:123-142 | assembly fails exactly when an image that has sub-regions has no file or cannot be read, and images without sub-regions are never opened; otherwise there is one row per visited sub-region, with the image's HSV raster, the sub-region's points as polygon and the anatomy name as label |
| Training.Features | analytics/api_views.py:136-142 | one feature row per labelled polygon, in order |
| Training.Create | analytics/api_views.py:117-161 | success creates exactly one trained model for the requested set, named `image_set_name + '.pkl'`, holding the pipeline fitted on one row per sub-region of the set; every failure, including a second model for the set, sets status 400 with the store unchanged |
| Training.TrainSet | analytics/api_views.py:123-161 | for a known image set: 201 exactly when assembly and fitting succeed and the set has no model yet, with one fitted row per sub-region of the set; every 400 leaves the store unchanged |
| Training.StoreModel | analytics/api_views.py:147-156 | the pickled pipeline named `image_set_name + '.pkl'` is stored as the set's model and answered with 201 exactly when the set had none; otherwise 400 with the store unchanged |
| AnatomyAggregation.Without | analytics/api_views.py:221-223 | taking a key out keeps every other key and drops exactly its occurrences |
| AnatomyAggregation.Tally | analytics/api_views.py:221-223 | grouping gives one group per distinct key, each with the number of times the key occurs |
| AnatomyAggregation.TallySum | analytics/api_views.py:221-223 | the group counts add up to the number of rows grouped |
| AnatomyAggregation.KeyCount | analytics/api_views.py:221-223 | grouping by anatomy name and id counts the sub-regions that carry that anatomy |
| AnatomyAggregation.AnatomyCounts | analytics/api_views.py:218-223 | one row per anatomy carried by some sub-region, with that anatomy's name and the number of sub-regions carrying it; the counts add up to the number of sub-regions |
| ExperimentList.MergeExperimentLists | static/ng-app/controllers/main_controller.js:28-40 | the keys are exactly the remote experiment ids; `retrieved` is true exactly when a local experiment has that id; local-only experiments are never added |
| ExperimentList.MergeOrderFree | static/ng-app/controllers/main_controller.js:30-40 | two remote lists with the same ids and two local lists with the same experiments give the same merged object, whatever their order or repetitions |
| Preload.ExperimentIdOfImageId | preload_analytics_models.py:22 | `image_id.split('_')[0]` is the underscore-free prefix that ends where the first `_` starts, or the whole id |

## Left out

- SPARQL over HTTP: each query's bindings are the result of the `Gateway.endpoint` parameter.
- The boto3 session and bucket download: `ObjectStore.download` is a parameter.
- Temporary files: the downloaded bytes are handed on directly.
- OpenCV and PIL: image decoding, colour conversion and TIFF/JPEG encoding are uninterpreted functions. Decoding and either encoder may fail (None), which aborts the fetch; when they fail is not modelled.
- SHA-1: the digest is an uninterpreted function. The model states only that it is applied to the stored TIFF bytes.
- `dateutil` parsing of `release_date`: an uninterpreted `formatDate`.
- `generate_custom_features`, `pipe.fit`, pandas and `pickle`: uninterpreted `Trainer` functions. They involve floating-point numerics and library code that is not part of this model.
- The Django ORM, transactions, migrations and querysets: replaced by the abstract `Db` store. `TrainAModelCreate.create` is not wrapped in a transaction; the model states only its database effect.
- File storage side effects of `TrainAModelCreate.create`: `final.save()` (analytics/api_views.py:150-151) writes the pickled `ContentFile` to file storage before the INSERT, so a second model for a set leaves an orphan `.pkl` file behind when the one-to-one INSERT fails. The model's `Db` has no file storage, so its 400 leaves only the database unchanged.
- The shared pipeline: `pipe.fit` (analytics/api_views.py:144-146) refits the module-global `utils.pipe` in place, before any later failure, so a failed request still changes the pipeline later requests start from. The `Trainer` is a pure parameter here.
- Concurrent requests: every view is modelled as one request served against one store state. Two concurrent requests for an uncached image both pass the `None`/`''` test and both call `get_image_from_s3` and save (analytics/api_views.py:92-98). `ImageDetail.RetrieveFetchesOnce` holds only for requests served one after the other.
- File storage naming: a stored `FileField` name is the upload's name. Django's storage also adds the `upload_to` directory, passes the name through `get_valid_name` (spaces become `_`, characters outside `[-\w.]` are dropped), adds collision suffixes, and truncates a name longer than the default `max_length` of 100 (analytics/models.py:102, :112, :174) and gives it a random suffix, so a long `image_set_name` is not stored as `<name>.pkl`. None of these is modelled; the core reads a stored name only to test whether it is empty.
- A NULL `FileField` name: the ORM always stores `''` for an empty file field, so a NULL name could only come from outside it.
- `analytics/serializers.py`: declarative field lists. Responses carry the record itself.
- `static/ng-app/app.js` and `static/ng-app/services/rest_service.js`: Angular routing, CSRF and resource configuration.
- The rest of `preload_analytics_models.py`: database seeding with `get_or_create`. Its source of image sets, `get_image_set_candidates`, is not part of this model.
- `ClassifySubRegion`, the user list and detail views, the other generic list and detail views, `print`, `warnings` output and `console.log`: echo, logging or framework-declared behaviour.
- The `ImageSetProbeMap`, `ExperimentProbeMap` and `AnatomyProbeMap` tables: no modelled operation reads or writes them.
- Text.Lower: covers ASCII letters only. Python's `str.lower` also folds other Unicode upper-case letters.
- Lungmap.ListAllExperiments: its contract states only the length. The content of each id is stated by `Lungmap.ExperimentIds`, which it returns.
- Records.Valid: enforces column widths the way PostgreSQL does. SQLite would store over-wide values.
- ExperimentList.MergeExperimentLists: models the object as a map from string keys. Keys that collide with JavaScript object properties such as `__proto__` are not modelled.
- AnatomyAggregation.AnatomyCounts: the order of the grouped rows is left unspecified, as SQL leaves it. The model lists them in order of first appearance.
- Records.InsertTrainedModel: the new row's key is modelled as one more than the largest key in use. The database's auto-increment sequence picks the key and never reuses a number, so after a deletion or a failed INSERT the real key can be larger. The same holds for the `id` of the 201 body of `Training.Create`, `Training.TrainSet` and `Training.StoreModel`.
- Training.Create and ImageDetail.Retrieve: the model gives the status the view sets. For an exception without `messages`, such as the `IntegrityError` of a second model for a set, the view replies `{'detail': e}` with the raw exception object. Rendering that reply as JSON is not modelled, and DRF's encoder may fail on it, so the client may see a server error instead of the 400.

=== FILE: anatomy_counts.dfy ===
/** `SubregionAnatomyAggregation.get_queryset` (`analytics/api_views.py`):
    sub-regions joined with their anatomy, grouped by anatomy name and id,
    each group annotated with its size. */
module AnatomyAggregation {
  import opened Records

  /** One row: `anatomy__name`, `anatomy_id`, `count`. */
  datatype AnatomyCount = AnatomyCount(anatomyName: string, anatomyId: nat, count: nat)

  /** The number of times `k` occurs in `keys`. */
  function Count<K(==)>(keys: seq<K>, k: K): nat {
    if |keys| == 0 then 0 else (if keys[0] == k then 1 else 0) + Count(keys[1..], k)
  }

  /** `keys` without any occurrence of `k`, order kept. */
  function Without<K(==,!new)>(keys: seq<K>, k: K): (r: seq<K>)
    ensures forall x :: x in r <==> x in keys && x != k
    ensures |r| == |keys| - Count(keys, k)
  {
    if |keys| == 0 then []
    else
      assert forall x :: x in keys <==> x == keys[0] || x in keys[1..];
      if keys[0] == k then Without(keys[1..], k) else [keys[0]] + Without(keys[1..], k)
  }

  lemma {:induction false} CountWithout<K(!new)>(keys: seq<K>, k: K, x: K)
    requires x != k
    ensures Count(Without(keys, k), x) == Count(keys, x)
    decreases |keys|
  {
    if |keys| > 0 {
      CountWithout(keys[1..], k, x);
      if keys[0] != k {
        assert Without(keys, k)[1..] == Without(keys[1..], k);
      }
    }
  }

  /** Some group is keyed by `k`. */
  predicate Grouped<K(==)>(groups: seq<(K, nat)>, k: K) {
    exists i :: 0 <= i < |groups| && groups[i].0 == k
  }

  /** The three facts a grouping of `keys` keeps. */
  predicate IsTally<K(==)>(keys: seq<K>, groups: seq<(K, nat)>) {
    && (forall i, j :: 0 <= i < j < |groups| ==> groups[i].0 != groups[j].0)
    && (forall i :: 0 <= i < |groups| ==> groups[i].0 in keys)
    && (forall k :: k in keys ==> Grouped(groups, k))
    && (forall i :: 0 <= i < |groups| ==> 0 < groups[i].1 == Count(keys, groups[i].0))
  }

  /** GROUP BY with COUNT: one group per distinct key, in order of first
      appearance, with the number of times the key occurs. */
  function Tally<K(==,!new)>(keys: seq<K>): (groups: seq<(K, nat)>)
    ensures IsTally(keys, groups)
    decreases |keys|
  {
    if |keys| == 0 then []
    else
      var rest := Without(keys[1..], keys[0]);
      var tail := Tally(rest);
      TallyCons(keys, rest, tail);
      [(keys[0], Count(keys, keys[0]))] + tail
  }

  /** A grouping of the keys after the first, with the first's occurrences
      taken out, extends to one of all keys by putting the first in front. */
  lemma TallyCons<K(!new)>(keys: seq<K>, rest: seq<K>, tail: seq<(K, nat)>)
    requires |keys| > 0 && rest == Without(keys[1..], keys[0]) && IsTally(rest, tail)
    ensures IsTally(keys, [(keys[0], Count(keys, keys[0]))] + tail)
  {
    TallyConsDistinct(keys, rest, tail);
    TallyConsCounts(keys, rest, tail);
    TallyConsCovers(keys, rest, tail);
  }

  /** The keys of `tail` are keys other than the first. */
  lemma TallyTailKeys<K(!new)>(keys: seq<K>, rest: seq<K>, tail: seq<(K, nat)>)
    requires |keys| > 0 && rest == Without(keys[1..], keys[0]) && IsTally(rest, tail)
    ensures forall i :: 0 <= i < |tail| ==> tail[i].0 != keys[0] && tail[i].0 in keys
  {
    forall i | 0 <= i < |tail| ensures tail[i].0 != keys[0] && tail[i].0 in keys {
      assert tail[i].0 in rest;
      assert tail[i].0 in keys[1..];
    }
  }

  lemma TallyConsDistinct<K(!new)>(keys: seq<K>, rest: seq<K>, tail: seq<(K, nat)>)
    requires |keys| > 0 && rest == Without(keys[1..], keys[0]) && IsTally(rest, tail)
    ensures var groups := [(keys[0], Count(keys, keys[0]))] + tail;
      && (forall i, j :: 0 <= i < j < |groups| ==> groups[i].0 != groups[j].0)
      && (forall i :: 0 <= i < |groups| ==> groups[i].0 in keys)
  {
    TallyTailKeys(keys, rest, tail);
    ConsDistinct((keys[0], Count(keys, keys[0])), tail);
    ConsMembers((keys[0], Count(keys, keys[0])), tail, keys);
  }

  lemma ConsDistinct<K>(g: (K, nat), tail: seq<(K, nat)>)
    requires forall i, j :: 0 <= i < j < |tail| ==> tail[i].0 != tail[j].0
    requires forall i :: 0 <= i < |tail| ==> tail[i].0 != g.0
    ensures forall i, j :: 0 <= i < j < |[g] + tail| ==> ([g] + tail)[i].0 != ([g] + tail)[j].0
  {
    var groups := [g] + tail;
    forall i, j | 0 <= i < j < |groups| ensures groups[i].0 != groups[j].0 {
      assert groups[j] == tail[j - 1];
      if i > 0 {
        assert groups[i] == tail[i - 1];
      }
    }
  }

  lemma ConsMembers<K>(g: (K, nat), tail: seq<(K, nat)>, keys: seq<K>)
    requires g.0 in keys
    requires forall i :: 0 <= i < |tail| ==> tail[i].0 in keys
    ensures forall i :: 0 <= i < |[g] + tail| ==> ([g] + tail)[i].0 in keys
  {
    var groups := [g] + tail;
    forall i | 0 <= i < |groups| ensures groups[i].0 in keys {
      if i > 0 {
        assert groups[i] == tail[i - 1];
      }
    }
  }

  lemma TallyConsCounts<K(!new)>(keys: seq<K>, rest: seq<K>, tail: seq<(K, nat)>)
    requires |keys| > 0 && rest == Without(keys[1..], keys[0]) && IsTally(rest, tail)
    ensures var groups := [(keys[0], Count(keys, keys[0]))] + tail;
      forall i :: 0 <= i < |groups| ==> 0 < groups[i].1 == Count(keys, groups[i].0)
  {
    var groups := [(keys[0], Count(keys, keys[0]))] + tail;
    TallyTailKeys(keys, rest, tail);
    forall i | 0 <= i < |groups| ensures 0 < groups[i].1 == Count(keys, groups[i].0) {
      if i > 0 {
        assert groups[i] == tail[i - 1];
        CountWithout(keys[1..], keys[0], tail[i - 1].0);
      }
    }
  }

  lemma TallyConsCovers<K(!new)>(keys: seq<K>, rest: seq<K>, tail: seq<(K, nat)>)
    requires |keys| > 0 && rest == Without(keys[1..], keys[0]) && IsTally(rest, tail)
    ensures forall x :: x in keys ==> Grouped([(keys[0], Count(keys, keys[0]))] + tail, x)
  {
    var groups := [(keys[0], Count(keys, keys[0]))] + tail;
    forall x | x in keys ensures Grouped(groups, x) {
      if x == keys[0] {
        assert groups[0].0 == x;
      } else {
        assert x in keys[1..];
        assert x in rest;
        var i :| 0 <= i < |tail| && tail[i].0 == x;
        assert groups[i + 1].0 == x;
      }
    }
  }

  function SumCounts<K>(groups: seq<(K, nat)>): nat {
    if |groups| == 0 then 0 else groups[0].1 + SumCounts(groups[1..])
  }

  /** The group sizes add up to the number of rows grouped. */
  lemma {:induction false} TallySum<K(!new)>(keys: seq<K>)
    ensures SumCounts(Tally(keys)) == |keys|
    decreases |keys|
  {
    if |keys| > 0 {
      var k := keys[0];
      var rest := Without(keys[1..], k);
      TallySum(rest);
      assert Tally(keys)[1..] == Tally(rest);
      assert Count(keys, k) == 1 + Count(keys[1..], k);
    }
  }

  /** The grouping key of each sub-region, after the inner join. */
  function Keys(anatomies: seq<Anatomy>, subregions: seq<Subregion>): (keys: seq<(string, nat)>)
    requires forall i :: 0 <= i < |subregions| ==> AnatomyIdIn(anatomies, subregions[i].anatomyId)
    ensures |keys| == |subregions|
    ensures forall i :: 0 <= i < |keys| ==>
      keys[i] == (AnatomyName(anatomies, subregions[i].anatomyId), subregions[i].anatomyId)
  {
    if |subregions| == 0 then []
    else
      var s := subregions[0];
      [(AnatomyName(anatomies, s.anatomyId), s.anatomyId)] + Keys(anatomies, subregions[1..])
  }

  /** The number of sub-regions labelled with anatomy `id`. */
  function Carrying(subregions: seq<Subregion>, id: nat): nat {
    if |subregions| == 0 then 0
    else (if subregions[0].anatomyId == id then 1 else 0) + Carrying(subregions[1..], id)
  }

  /** A group's key count is the number of sub-regions with that anatomy:
      the name is a function of the id, so grouping by both is grouping by
      the id. */
  lemma {:induction false} KeyCount(anatomies: seq<Anatomy>, subregions: seq<Subregion>, id: nat)
    requires forall i :: 0 <= i < |subregions| ==> AnatomyIdIn(anatomies, subregions[i].anatomyId)
    requires AnatomyIdIn(anatomies, id)
    ensures Count(Keys(anatomies, subregions), (AnatomyName(anatomies, id), id)) == Carrying(subregions, id)
    decreases |subregions|
  {
    if |subregions| > 0 {
      assert Keys(anatomies, subregions)[1..] == Keys(anatomies, subregions[1..]);
      KeyCount(anatomies, subregions[1..], id);
    }
  }

  /** Some sub-region carries anatomy `id`. */
  predicate Used(subregions: seq<Subregion>, id: nat) {
    exists k :: 0 <= k < |subregions| && subregions[k].anatomyId == id
  }

  /** Some row is about anatomy `id`. */
  predicate Listed(rows: seq<AnatomyCount>, id: nat) {
    exists i :: 0 <= i < |rows| && rows[i].anatomyId == id
  }

  /** The aggregation's rows: one per anatomy that some sub-region carries,
      each with the anatomy's name and the number of sub-regions carrying
      it; the counts add up to the number of sub-regions. */
  function AnatomyCounts(db: Db): (rows: seq<AnatomyCount>)
    requires AnatomiesKnown(db)
    ensures forall i, j :: 0 <= i < j < |rows| ==> rows[i].anatomyId != rows[j].anatomyId
    ensures forall id :: Listed(rows, id) <==> Used(db.subregions, id)
    ensures forall i :: 0 <= i < |rows| ==>
      && AnatomyIdIn(db.anatomies, rows[i].anatomyId)
      && rows[i].anatomyName == AnatomyName(db.anatomies, rows[i].anatomyId)
      && 0 < rows[i].count == Carrying(db.subregions, rows[i].anatomyId)
    ensures SumRows(rows) == |db.subregions|
  {
    var keys := Keys(db.anatomies, db.subregions);
    var groups := Tally(keys);
    var rows := RowsOf(groups);
    GroupsAreKeys(db, keys, groups, rows);
    UsedIsListed(db, keys, groups, rows);
    TallySum(keys);
    rows
  }

  /** The grouped rows in the view's output shape. */
  function RowsOf(groups: seq<((string, nat), nat)>): (rows: seq<AnatomyCount>)
    ensures |rows| == |groups|
    ensures forall i :: 0 <= i < |groups| ==>
      rows[i] == AnatomyCount(groups[i].0.0, groups[i].0.1, groups[i].1)
    ensures SumRows(rows) == SumCounts(groups)
  {
    if |groups| == 0 then []
    else [AnatomyCount(groups[0].0.0, groups[0].0.1, groups[0].1)] + RowsOf(groups[1..])
  }

  /** Every group key is the key of some sub-region, so its name is that
      anatomy's name and its count is the number carrying it. */
  lemma GroupsAreKeys(db: Db, keys: seq<(string, nat)>, groups: seq<((string, nat), nat)>, rows: seq<AnatomyCount>)
    requires AnatomiesKnown(db)
    requires keys == Keys(db.anatomies, db.subregions) && IsTally(keys, groups)
    requires |rows| == |groups|
    requires forall i :: 0 <= i < |groups| ==> rows[i] == AnatomyCount(groups[i].0.0, groups[i].0.1, groups[i].1)
    ensures forall i :: 0 <= i < |rows| ==>
      && AnatomyIdIn(db.anatomies, rows[i].anatomyId)
      && rows[i].anatomyName == AnatomyName(db.anatomies, rows[i].anatomyId)
      && 0 < rows[i].count == Carrying(db.subregions, rows[i].anatomyId)
    ensures forall i, j :: 0 <= i < j < |rows| ==> rows[i].anatomyId != rows[j].anatomyId
  {
    forall i | 0 <= i < |rows|
      ensures AnatomyIdIn(db.anatomies, rows[i].anatomyId)
      ensures groups[i].0 == (AnatomyName(db.anatomies, rows[i].anatomyId), rows[i].anatomyId)
    {
      var k :| 0 <= k < |keys| && keys[k] == groups[i].0;
    }
    forall i | 0 <= i < |rows|
      ensures rows[i].count == Carrying(db.subregions, rows[i].anatomyId)
    {
      KeyCount(db.anatomies, db.subregions, rows[i].anatomyId);
    }
  }

  /** An anatomy is listed exactly when some sub-region carries it. */
  lemma UsedIsListed(db: Db, keys: seq<(string, nat)>, groups: seq<((string, nat), nat)>, rows: seq<AnatomyCount>)
    requires AnatomiesKnown(db)
    requires keys == Keys(db.anatomies, db.subregions) && IsTally(keys, groups)
    requires |rows| == |groups|
    requires forall i :: 0 <= i < |groups| ==> rows[i] == AnatomyCount(groups[i].0.0, groups[i].0.1, groups[i].1)
    ensures forall id :: Listed(rows, id) <==> Used(db.subregions, id)
  {
    forall id | Used(db.subregions, id) ensures Listed(rows, id) {
      UsedListed(db, keys, groups, rows, id);
    }
    forall id | Listed(rows, id) ensures Used(db.subregions, id) {
      ListedUsed(db, keys, groups, rows, id);
    }
  }

  lemma UsedListed(db: Db, keys: seq<(string, nat)>, groups: seq<((string, nat), nat)>, rows: seq<AnatomyCount>, id: nat)
    requires AnatomiesKnown(db)
    requires keys == Keys(db.anatomies, db.subregions)
    requires forall k :: k in keys ==> Grouped(groups, k)
    requires |rows| == |groups|
    requires forall i :: 0 <= i < |groups| ==> rows[i] == AnatomyCount(groups[i].0.0, groups[i].0.1, groups[i].1)
    requires Used(db.subregions, id)
    ensures Listed(rows, id)
  {
    var k :| 0 <= k < |db.subregions| && db.subregions[k].anatomyId == id;
    assert keys[k] in keys;
    var i :| 0 <= i < |groups| && groups[i].0 == keys[k];
    assert rows[i].anatomyId == id;
  }

  lemma ListedUsed(db: Db, keys: seq<(string, nat)>, groups: seq<((string, nat), nat)>, rows: seq<AnatomyCount>, id: nat)
    requires AnatomiesKnown(db)
    requires keys == Keys(db.anatomies, db.subregions)
    requires forall i :: 0 <= i < |groups| ==> groups[i].0 in keys
    requires |rows| == |groups|
    requires forall i :: 0 <= i < |groups| ==> rows[i] == AnatomyCount(groups[i].0.0, groups[i].0.1, groups[i].1)
    requires Listed(rows, id)
    ensures Used(db.subregions, id)
  {
    var i :| 0 <= i < |rows| && rows[i].anatomyId == id;
    var k :| 0 <= k < |keys| && keys[k] == groups[i].0;
    assert db.subregions[k].anatomyId == id;
  }

  function SumRows(rows: seq<AnatomyCount>): nat {
    if |rows| == 0 then 0 else rows[0].count + SumRows(rows[1..])
  }
}

=== FILE: experiment_list.dfy ===
/** The merge callback of `ExperimentListController`
    (`static/ng-app/controllers/main_controller.js`): every experiment id
    LungMAP lists becomes a key, flagged `retrieved` when the local store
    already holds that experiment. */
module ExperimentList {
  import opened Records

  /** Some local experiment has this id. */
  predicate Stored(local: seq<Experiment>, id: string) {
    exists k :: 0 <= k < |local| && local[k].experimentId == id
  }

  /** The merged object, stated as a function of the two id sets: keys are
      the remote ids, the flag says whether the id is stored locally. */
  function Merged(remote: seq<string>, local: seq<Experiment>): map<string, bool> {
    map id | id in remote :: Stored(local, id)
  }

  /** The two `forEach` loops. The first sets every remote id to
      `retrieved: false`; the second sets the flag of each local experiment
      whose id is already a key, and never adds a key. */
  method MergeExperimentLists(remote: seq<string>, local: seq<Experiment>) returns (all: map<string, bool>)
    ensures all.Keys == set id | id in remote
    ensures forall id :: id in all ==> (all[id] <==> Stored(local, id))
    ensures all == Merged(remote, local)
  {
    all := map[];
    var i := 0;
    while i < |remote|
      invariant 0 <= i <= |remote|
      invariant all.Keys == set id | id in remote[..i]
      invariant forall id :: id in all ==> !all[id]
    {
      assert remote[..i + 1] == remote[..i] + [remote[i]];
      all := all[remote[i] := false];
      i := i + 1;
    }
    assert remote[..i] == remote;
    var j := 0;
    while j < |local|
      invariant 0 <= j <= |local|
      invariant all.Keys == set id | id in remote
      invariant forall id :: id in all ==> (all[id] <==> Stored(local[..j], id))
    {
      var id := local[j].experimentId;
      if id in all {
        all := all[id := true];
      }
      forall x | x in all ensures all[x] <==> Stored(local[..j + 1], x) {
        assert local[..j + 1][j] == local[j];
        assert forall k :: 0 <= k < j ==> local[..j + 1][k] == local[..j][k];
      }
      j := j + 1;
    }
    assert local[..j] == local;
  }

  /** Neither the order of either list nor repeated ids change the result:
      only which ids and which experiments occur matters. */
  lemma MergeOrderFree(remote: seq<string>, remote': seq<string>, local: seq<Experiment>, local': seq<Experiment>)
    requires forall id :: id in remote <==> id in remote'
    requires forall x :: x in local <==> x in local'
    ensures Merged(remote, local) == Merged(remote', local')
  {
    forall id ensures Stored(local, id) <==> Stored(local', id) {
      StoredSame(local, local', id);
      StoredSame(local', local, id);
    }
  }

  /** An experiment stored in one list is stored in any list holding the
      same experiments. */
  lemma StoredSame(local: seq<Experiment>, local': seq<Experiment>, id: string)
    requires forall x :: x in local ==> x in local'
    ensures Stored(local, id) ==> Stored(local', id)
  {
    if Stored(local, id) {
      var k :| 0 <= k < |local| && local[k].experimentId == id;
      assert local[k] in local';
      var k' :| 0 <= k' < |local'| && local'[k'] == local[k];
    }
  }
}

=== FILE: hex.dfy ===
/** Bytes and the lower-case hexadecimal rendering `hashlib`'s `hexdigest()`
    produces. */
module Hex {
  import opened Wrappers

  type byte = x: int | 0 <= x < 256

  /** A SHA-1 digest (FIPS 180-4): 160 bits. */
  type Sha1Digest = d: seq<byte> | |d| == 20 witness seq(20, i => 0)

  predicate IsHexChar(c: char) {
    '0' <= c <= '9' || 'a' <= c <= 'f'
  }

  function HexChar(n: int): (c: char)
    requires 0 <= n < 16
    ensures IsHexChar(c)
  {
    if n < 10 then ('0' as int + n) as char else ('a' as int + n - 10) as char
  }

  function HexValue(c: char): (n: int)
    requires IsHexChar(c)
    ensures 0 <= n < 16
    ensures HexChar(n) == c
  {
    if c <= '9' then c as int - '0' as int else c as int - 'a' as int + 10
  }

  /** Two hex digits per byte, high nibble first. */
  function HexDigest(d: seq<byte>): (h: string)
    ensures |h| == 2 * |d|
    ensures forall i :: 0 <= i < |h| ==> IsHexChar(h[i])
  {
    if |d| == 0 then ""
    else [HexChar(d[0] / 16), HexChar(d[0] % 16)] + HexDigest(d[1..])
  }

  /** Reads a hex rendering back; None on an odd length or a non-hex digit. */
  function ParseHex(h: string): Option<seq<byte>>
    decreases |h|
  {
    if |h| == 0 then Some([])
    else if |h| == 1 || !IsHexChar(h[0]) || !IsHexChar(h[1]) then None
    else match ParseHex(h[2..])
      case None => None
      case Some(rest) => Some([HexValue(h[0]) * 16 + HexValue(h[1])] + rest)
  }

  /** The hex rendering loses nothing: parsing it gives the digest back. */
  lemma {:induction false} ParseHexDigest(d: seq<byte>)
    ensures ParseHex(HexDigest(d)) == Some(d)
  {
    if |d| > 0 {
      var h := HexDigest(d);
      ParseHexDigest(d[1..]);
      assert h[2..] == HexDigest(d[1..]);
      ByteNibbles(d[0]);
      ParseHexStep(h);
      assert d == [d[0]] + d[1..];
    }
  }

  /** A byte is its two rendered nibbles read back. */
  lemma ByteNibbles(b: byte)
    ensures HexValue(HexChar(b / 16)) * 16 + HexValue(HexChar(b % 16)) == b
  {
    assert HexValue(HexChar(b / 16)) == b / 16;
    assert HexValue(HexChar(b % 16)) == b % 16;
  }

  /** One step of `ParseHex` on two hex digits and a readable rest. */
  lemma ParseHexStep(h: string)
    requires |h| >= 2 && IsHexChar(h[0]) && IsHexChar(h[1])
    requires ParseHex(h[2..]).Some?
    ensures ParseHex(h) == Some([HexValue(h[0]) * 16 + HexValue(h[1])] + ParseHex(h[2..]).value)
  {
  }

  /** Distinct digests never render alike. */
  lemma HexDigestInjective(d1: seq<byte>, d2: seq<byte>)
    requires HexDigest(d1) == HexDigest(d2)
    ensures d1 == d2
  {
    ParseHexDigest(d1);
    ParseHexDigest(d2);
  }

  /** `hexdigest()` of a SHA-1: exactly 40 hex digits. */
  function Sha1Hex(d: Sha1Digest): (h: string)
    ensures |h| == 40 && forall i :: 0 <= i < 40 ==> IsHexChar(h[i])
    ensures ParseHex(h) == Some(d)
  {
    ParseHexDigest(d);
    HexDigest(d)
  }
}

=== FILE: http.dfy ===
/** The replies the REST views send, reduced to status and payload. */
module Http {
  /** 200 or 201 with a body, 400 with the `detail` of the exception caught,
      404 with a message. */
  datatype Response<T, E> =
    | Ok200(body: T)
    | Created201(body: T)
    | BadRequest400(detail: E)
    | NotFound404(message: string)
}

=== FILE: image_detail.dfy ===
/** The image endpoints of `analytics/api_views.py`: the read-through cache
    of `LungmapImageDetail.retrieve` and the JPEG download of
    `get_image_jpeg`. */
module ImageDetail {
  import opened Wrappers
  import opened Hex
  import opened Records
  import opened Http
  import Lungmap

  datatype RetrieveError = Fetch(fetchError: Lungmap.FetchError) | Write(storeError: StoreError)

  /** The store after the request, the reply, and the S3 keys fetched. */
  datatype Retrieved = Retrieved(db: Db, response: Response<Image, RetrieveError>, fetched: seq<string>)

  /** The cache gate: no SHA-1 recorded yet (NULL or blank). */
  predicate CacheMiss(im: Image) {
    im.imageOrigSha1 == None || im.imageOrigSha1 == Some("")
  }

  /** The image with the three fetched artefacts stored together. */
  function Cached(im: Image, f: Lungmap.Fetched): Image {
    im.(imageOrig := FieldFile(f.orig.name, f.orig.content),
        imageOrigSha1 := Some(f.sha1),
        imageJpeg := FieldFile(f.jpeg.name, f.jpeg.content))
  }

  /** `LungmapImageDetail.retrieve`. An unknown key is a 404 from
      `get_object`. On a miss the image is fetched from S3 once and the
      original, its SHA-1 and the JPEG are saved together; on a hit nothing
      is fetched or written; any failure inside the atomic block is a 400
      and leaves the store as it was. */
  function Retrieve(db: Db, pk: nat, store: Lungmap.ObjectStore): (out: Retrieved)
    requires Valid(db)
    ensures Valid(out.db)
    ensures out.response.NotFound404? <==> ImageRow(db, pk).None?
    ensures !out.response.Created201?
    ensures out.fetched ==
      (if ImageRow(db, pk).Some? && CacheMiss(ImageRow(db, pk).value) then [ImageRow(db, pk).value.s3key] else [])
    ensures !out.response.Ok200? ==> out.db == db
    ensures out.response.BadRequest400? ==> out.response.detail.Fetch?
    ensures ImageRow(db, pk).Some? && !CacheMiss(ImageRow(db, pk).value) ==>
      out == Retrieved(db, Ok200(ImageRow(db, pk).value), [])
    ensures ImageRow(db, pk).Some? && CacheMiss(ImageRow(db, pk).value) ==>
      var im := ImageRow(db, pk).value;
      var f := Lungmap.FetchImage(store, im.s3key);
      && (f.Err? ==> out.response == BadRequest400(Fetch(f.error)))
      && (f.Ok? ==>
            && out.response == Ok200(Cached(im, f.value))
            && ImageRow(out.db, pk) == Some(Cached(im, f.value))
            && out.db == db.(images := db.images[FindImage(db.images, pk).value := Cached(im, f.value)]))
  {
    match ImageRow(db, pk)
    case None => Retrieved(db, NotFound404("Not found."), [])
    case Some(im) =>
      if !CacheMiss(im) then Retrieved(db, Ok200(im), [])
      else
        match Lungmap.FetchImage(store, im.s3key)
        case Err(e) => Retrieved(db, BadRequest400(Fetch(e)), [im.s3key])
        case Ok(f) =>
          var im' := Cached(im, f);
          assert ImageFits(im') by {
            assert ImageFits(db.images[FindImage(db.images, pk).value]);
          }
          match PutImage(db, im')
          case Err(e) => Retrieved(db, BadRequest400(Write(e)), [im.s3key])
          case Ok(db') => Retrieved(db', Ok200(im'), [im.s3key])
  }

  /** Once a miss has been served, the image is a hit: a second request
      fetches nothing, writes nothing and returns the cached image. */
  lemma RetrieveFetchesOnce(db: Db, pk: nat, store: Lungmap.ObjectStore, store': Lungmap.ObjectStore)
    requires Valid(db)
    requires Retrieve(db, pk, store).response.Ok200?
    ensures var first := Retrieve(db, pk, store);
      var second := Retrieve(first.db, pk, store');
      second == Retrieved(first.db, first.response, [])
  {
    var first := Retrieve(db, pk, store);
    var im := ImageRow(db, pk).value;
    var row := if CacheMiss(im) then Cached(im, Lungmap.FetchImage(store, im.s3key).value) else im;
    assert ImageRow(first.db, pk) == Some(row) && first.response == Ok200(row) by {
      if CacheMiss(im) {
        CachedIsHit(im, Lungmap.FetchImage(store, im.s3key).value);
      }
    }
    assert !CacheMiss(row) by {
      if CacheMiss(im) {
        CachedIsHit(im, Lungmap.FetchImage(store, im.s3key).value);
      }
    }
  }

  /** A stored fetch leaves a 40-character SHA-1, which the gate reads as a hit. */
  lemma CachedIsHit(im: Image, f: Lungmap.Fetched)
    requires |f.sha1| == 40
    ensures !CacheMiss(Cached(im, f))
  {
  }

  /** `get_image_jpeg`: 404 for an unknown key, 404 'image not yet cached'
      when no JPEG name is stored, the JPEG bytes otherwise. */
  function ImageJpeg(db: Db, pk: nat): (r: Response<seq<byte>, string>)
    ensures r.NotFound404? <==> ImageRow(db, pk).None? || ImageRow(db, pk).value.imageJpeg.name == ""
    ensures r.NotFound404? && ImageRow(db, pk).Some? ==> r.message == "image not yet cached"
    ensures r.Ok200? ==> r.body == ImageRow(db, pk).value.imageJpeg.content
    ensures !r.BadRequest400? && !r.Created201?
  {
    match ImageRow(db, pk)
    case None => NotFound404("Not found.")
    case Some(im) =>
      if im.imageJpeg.name == "" then NotFound404("image not yet cached")
      else Ok200(im.imageJpeg.content)
  }

  /** After a cache miss has been served, the JPEG endpoint returns the
      fetched JPEG bytes. */
  lemma JpegServedAfterRetrieve(db: Db, pk: nat, store: Lungmap.ObjectStore)
    requires Valid(db)
    requires ImageRow(db, pk).Some? && CacheMiss(ImageRow(db, pk).value)
    ensures var im := ImageRow(db, pk).value;
      Retrieve(db, pk, store).response.Ok200? ==>
      ImageJpeg(Retrieve(db, pk, store).db, pk) ==
        Ok200(Lungmap.FetchImage(store, im.s3key).value.jpeg.content)
  {
    var im := ImageRow(db, pk).value;
    if Retrieve(db, pk, store).response.Ok200? {
      var f := Lungmap.FetchImage(store, im.s3key).value;
      assert f.jpeg.name[|f.jpeg.name| - 4..] == ".jpg";
    }
  }
}

=== FILE: lungmap.dfy ===
/** The LungMAP gateway (`lungmap_client/lungmap_utils.py`): SPARQL result
    bindings flattened into rows, the per-query cardinality policies, the
    experiment-id substitution into query text, and the naming and hashing of
    images fetched from the S3 bucket. The SPARQL endpoint, the bucket and the
    image codecs are parameters. */
module Lungmap {
  import opened Wrappers
  import opened Text
  import opened PosixPath
  import opened Hex

  /** One SPARQL result row, every variable flattened to its `value`. */
  type Binding = map<string, string>

  /** A dict row handed on to the model layer. */
  type Record = map<string, string>

  datatype QueryError =
    | EndpointFailed(message: string)       // the SPARQL request or its JSON failed
    | MissingVariable(name: string)         // KeyError on `x[name]`
    | NoFragment(uri: string, sep: string)  // IndexError on `uri.split(sep)[1]`
    | BadDate(value: string)                // `dateutil` could not parse the date
    | TooManyResults                        // ValueError('too many results')
    | NoResults                             // ValueError('no results found')
    | UnboundRow                            // UnboundLocalError: `row` never assigned
    | NotAMapping                           // TypeError from `{**None}`

  /** The query texts of `lungmap_sparql_queries`, which are opaque here. */
  datatype Templates = Templates(
    allExperimentsWithImage: string,
    sampleByExperiment: string,
    imagesByExperiment: string,
    probesByExperiment: string,
    experimentTypeByExperiment: string,
    researcherByExperiment: string)

  /** The SPARQL endpoint (query text to bindings), the query templates, and
      `parser.parse(v).strftime('%Y-%m-%d')` (None where it raises). */
  datatype Gateway = Gateway(
    endpoint: string -> Result<seq<Binding>, QueryError>,
    queries: Templates,
    formatDate: string -> Option<string>)

  const PLACEHOLDER := "EXPERIMENT_PLACEHOLDER"

  // ---------------------------------------------------------------------
  // Reading bindings

  /** `x[name]['value']`. */
  function Value(b: Binding, name: string): (r: Result<string, QueryError>)
    ensures r.Ok? <==> name in b
    ensures r.Ok? ==> r.value == b[name]
    ensures r.Err? ==> r.error == MissingVariable(name)
  {
    if name in b then Ok(b[name]) else Err(MissingVariable(name))
  }

  /** `uri.split(sep)[1]`. */
  function Fragment(uri: string, sep: string): (r: Result<string, QueryError>)
    requires |sep| > 0
    ensures r.Ok? <==> Contains(uri, sep)
    ensures r.Ok? ==> Field(uri, sep, 1) == Some(r.value)
    ensures r.Err? ==> r.error == NoFragment(uri, sep)
  {
    SecondFieldExists(uri, sep);
    match Field(uri, sep, 1)
    case None => Err(NoFragment(uri, sep))
    case Some(f) => Ok(f)
  }

  /** A `for x in results` loop that appends one row per binding, in binding
      order; the first binding that raises ends the loop with its error. */
  function RowsOf<T>(bindings: seq<Binding>, build: Binding -> Result<T, QueryError>): (r: Result<seq<T>, QueryError>)
    ensures r.Ok? <==> forall k :: 0 <= k < |bindings| ==> build(bindings[k]).Ok?
    ensures r.Ok? ==> |r.value| == |bindings|
    ensures r.Ok? ==> forall k :: 0 <= k < |bindings| ==> r.value[k] == build(bindings[k]).value
    ensures r.Err? ==> exists k :: (0 <= k < |bindings| && build(bindings[k]).Err? &&
      build(bindings[k]).error == r.error && forall j :: 0 <= j < k ==> build(bindings[j]).Ok?)
    decreases |bindings|
  {
    if |bindings| == 0 then Ok([])
    else
      match build(bindings[0])
      case Err(e) => Err(e)
      case Ok(row) =>
        var rest := RowsOf(bindings[1..], build);
        assert forall k :: 1 <= k < |bindings| ==> bindings[k] == bindings[1..][k - 1];
        match rest
        case Err(e) => Err(e)
        case Ok(rows) => Ok([row] + rows)
  }

  // ---------------------------------------------------------------------
  // Query text

  /** `query.replace('EXPERIMENT_PLACEHOLDER', experiment_id)`. */
  function ExperimentQuery(template: string, experimentId: string): string {
    Replace(template, PLACEHOLDER, experimentId)
  }

  /** A suffix of the placeholder that starts with its first letter `E`
      never ends, as a prefix of the same length must, on a letter that
      the placeholder's last letter `R` can match. */
  lemma PlaceholderBorderless()
    ensures Borderless(PLACEHOLDER)
  {
    var p := PLACEHOLDER;
    assert |p| == 22 && p[0] == 'E' && p[21] == 'R';
    assert forall j :: 1 <= j < 22 && p[j] == 'E' ==> j == 3 || j == 7 || j == 15 || j == 20;
    assert p[1] != 'R' && p[6] != 'R' && p[14] != 'R' && p[18] != 'R';
    forall k | 0 < k < |p| ensures p[..k] != p[|p| - k..] {
      if p[|p| - k] != 'E' {
        assert p[..k][0] != p[|p| - k..][0];
      } else {
        assert p[..k][k - 1] != p[|p| - k..][k - 1];
      }
    }
  }

  /** Every occurrence of the placeholder becomes the experiment id and the
      rest of the query text is kept as it is. */
  lemma ExperimentQueryFillsPlaceholder(pieces: seq<string>, experimentId: string)
    requires |pieces| >= 1
    requires forall k :: 0 <= k < |pieces| ==> !Contains(pieces[k], PLACEHOLDER)
    ensures ExperimentQuery(JoinWith(pieces, PLACEHOLDER), experimentId) == JoinWith(pieces, experimentId)
  {
    PlaceholderBorderless();
    ReplaceJoined(pieces, PLACEHOLDER, experimentId);
  }

  /** `_get_by_experiment`: substitute, send, return the bindings. */
  function GetByExperiment(g: Gateway, template: string, experimentId: string): Result<seq<Binding>, QueryError> {
    g.endpoint(ExperimentQuery(template, experimentId))
  }

  // ---------------------------------------------------------------------
  // Experiment list

  function ExperimentIdOf(b: Binding): (r: Result<string, QueryError>)
    ensures r.Ok? <==> "experiment" in b && Contains(b["experiment"], "#")
    ensures r.Ok? ==> Field(b["experiment"], "#", 1) == Some(r.value)
  {
    var uri :- Value(b, "experiment");
    Fragment(uri, "#")
  }

  /** The loop of `list_all_lungmap_experiments`: one id per binding, in
      binding order, each the text after the first `#` of the experiment URI
      (up to the next `#`). */
  function ExperimentIds(bindings: seq<Binding>): (r: Result<seq<string>, QueryError>)
    ensures r.Ok? <==> forall k :: 0 <= k < |bindings| ==>
      "experiment" in bindings[k] && Contains(bindings[k]["experiment"], "#")
    ensures r.Ok? ==> |r.value| == |bindings|
    ensures r.Ok? ==> forall k :: 0 <= k < |bindings| ==>
      Field(bindings[k]["experiment"], "#", 1) == Some(r.value[k])
  {
    RowsOf(bindings, ExperimentIdOf)
  }

  function ListAllExperiments(g: Gateway): (r: Result<seq<string>, QueryError>)
    ensures r.Ok? ==> (g.endpoint(g.queries.allExperimentsWithImage).Ok? &&
      |r.value| == |g.endpoint(g.queries.allExperimentsWithImage).value|)
  {
    var bindings :- g.endpoint(g.queries.allExperimentsWithImage);
    ExperimentIds(bindings)
  }

  // ---------------------------------------------------------------------
  // Sample: warn on more than one binding and use the first

  datatype Sample = Sample(row: Option<Record>, warned: bool)

  const SAMPLE_KEYS: set<string> := {"age_label", "sex", "organism_label", "local_id"}

  predicate HasSampleVariables(x: Binding) {
    "age_label" in x && "sex" in x && "organism_label" in x && "local_id" in x
  }

  function SampleRow(x: Binding): Result<Record, QueryError> {
    var age :- Value(x, "age_label");
    var sex :- Value(x, "sex");
    var organism :- Value(x, "organism_label");
    var localId :- Value(x, "local_id");
    Ok(map["age_label" := age, "sex" := Lower(sex), "organism_label" := organism, "local_id" := localId])
  }

  /** `get_sample_by_experiment` after the query. */
  function SampleOf(bindings: seq<Binding>): (r: Result<Sample, QueryError>)
    ensures |bindings| == 0 ==> r == Ok(Sample(None, false))
    ensures |bindings| > 0 ==> (r.Ok? <==> HasSampleVariables(bindings[0]))
    ensures r.Ok? ==> (r.value.warned <==> |bindings| > 1)
    ensures r.Ok? && |bindings| > 0 ==>
      var x, row := bindings[0], r.value.row;
      && row.Some?
      && row.value.Keys == SAMPLE_KEYS
      && row.value["sex"] == Lower(x["sex"]) && IsLower(row.value["sex"])
      && row.value["age_label"] == x["age_label"]
      && row.value["organism_label"] == x["organism_label"]
      && row.value["local_id"] == x["local_id"]
  {
    if |bindings| == 0 then Ok(Sample(None, false))
    else
      var row :- SampleRow(bindings[0]);
      LowerIsLower(bindings[0]["sex"]);
      Ok(Sample(Some(row), |bindings| > 1))
  }

  // ---------------------------------------------------------------------
  // Images

  datatype ImageRow = ImageRow(
    fileExt: string,
    imageName: string,
    imageId: string,
    s3key: string,
    experimentId: string,
    magnification: string,
    xScaling: string,
    yScaling: string)

  /** The six variables an image binding must bind. */
  predicate HasImageVariables(x: Binding) {
    && "img_file" in x && "experiment" in x && "image" in x
    && "magnification" in x && "x_scaling" in x && "y_scaling" in x
  }

  function ImageRowOf(x: Binding): (r: Result<ImageRow, QueryError>)
    ensures r.Ok? <==> ImageBindingReadable(x)
    ensures r.Ok? ==> ImageRowFrom(x, r.value)
  {
    var filename :- Value(x, "img_file");
    var (name, ext) := SplitExt(filename);
    var experimentUri :- Value(x, "experiment");
    var root :- Fragment(experimentUri, "owl#");
    var imageUri :- Value(x, "image");
    var imageId :- Fragment(imageUri, "owl#");
    var magnification :- Value(x, "magnification");
    var xScaling :- Value(x, "x_scaling");
    var yScaling :- Value(x, "y_scaling");
    Ok(ImageRow(ext, filename, imageId, Join3(root, name, filename), root, magnification, xScaling, yScaling))
  }

  /** What a row of `get_images_by_experiment` says about its binding. */
  predicate ImageRowFrom(x: Binding, row: ImageRow) {
    && HasImageVariables(x)
    && row.imageName == x["img_file"]
    && SplitExt(row.imageName).0 + row.fileExt == row.imageName
    && row.fileExt == SplitExt(row.imageName).1
    && Field(x["experiment"], "owl#", 1) == Some(row.experimentId)
    && Field(x["image"], "owl#", 1) == Some(row.imageId)
    && KeyFollowsName(row)
    && row.magnification == x["magnification"]
    && row.xScaling == x["x_scaling"] && row.yScaling == x["y_scaling"]
  }

  /** The S3 key `<experiment id>/<stem>/<file name>` the row is stored under. */
  predicate KeyFollowsName(row: ImageRow) {
    row.s3key == Join3(row.experimentId, SplitExt(row.imageName).0, row.imageName)
  }

  predicate ImageBindingReadable(x: Binding) {
    HasImageVariables(x) && Contains(x["experiment"], "owl#") && Contains(x["image"], "owl#")
  }

  /** `get_images_by_experiment` after the query: exactly one row per
      binding, in order. */
  function ImageRows(bindings: seq<Binding>): (r: Result<seq<ImageRow>, QueryError>)
    ensures r.Ok? <==> forall k :: 0 <= k < |bindings| ==> ImageBindingReadable(bindings[k])
    ensures r.Ok? ==> |r.value| == |bindings|
    ensures r.Ok? ==> forall k :: 0 <= k < |bindings| ==> ImageRowFrom(bindings[k], r.value[k])
  {
    RowsOf(bindings, ImageRowOf)
  }

  /** A row's key ends in its file name, and dropping the key's extension
      leaves the file's stem as the last component: the names the S3 fetch
      gives to the two uploads. */
  lemma ImageKeyNames(row: ImageRow)
    requires KeyFollowsName(row)
    requires NoSlash(row.imageName)
    ensures Basename(row.s3key) == row.imageName
    ensures Basename(SplitExt(row.s3key).0) == SplitExt(row.imageName).0
  {
    JoinBasename(Join(row.experimentId, SplitExt(row.imageName).0), row.imageName);
    JoinStemBasename(Join(row.experimentId, SplitExt(row.imageName).0), row.imageName);
  }

  // ---------------------------------------------------------------------
  // Probes

  function ProbeRowOf(x: Binding): (r: Result<Record, QueryError>)
    ensures r.Ok? <==> {"color", "probe_label"} <= x.Keys
    ensures r.Ok? ==> r.value == map["color" := x["color"], "probe_label" := x["probe_label"]]
  {
    var color :- Value(x, "color");
    var probeLabel :- Value(x, "probe_label");
    Ok(map["color" := color, "probe_label" := probeLabel])
  }

  /** `get_probes_by_experiment` after the query: one row per binding. */
  function ProbeRows(bindings: seq<Binding>): (r: Result<seq<Record>, QueryError>)
    ensures r.Ok? <==> forall k :: 0 <= k < |bindings| ==> {"color", "probe_label"} <= bindings[k].Keys
    ensures r.Ok? ==> |r.value| == |bindings|
    ensures r.Ok? ==> forall k :: 0 <= k < |bindings| ==>
      r.value[k] == map["color" := bindings[k]["color"], "probe_label" := bindings[k]["probe_label"]]
  {
    RowsOf(bindings, ProbeRowOf)
  }

  // ---------------------------------------------------------------------
  // Experiment type: fail on none and on more than one

  const TYPE_KEYS: set<string> := {"platform", "release_date", "experiment_type_label"}

  predicate HasTypeVariables(x: Binding) {
    "platform" in x && "release_date" in x && "experiment_type_label" in x
  }

  function TypeRow(x: Binding, formatDate: string -> Option<string>): Result<Record, QueryError> {
    var platform :- Value(x, "platform");
    var raw :- Value(x, "release_date");
    var date :- match formatDate(raw) case None => Err(BadDate(raw)) case Some(d) => Ok(d);
    var typeLabel :- Value(x, "experiment_type_label");
    Ok(map["platform" := platform, "release_date" := date, "experiment_type_label" := typeLabel])
  }

  /** `get_experiment_type_by_experiment` after the query. */
  function ExperimentTypeOf(bindings: seq<Binding>, formatDate: string -> Option<string>): (r: Result<Record, QueryError>)
    ensures r == Err(TooManyResults) <==> |bindings| > 1
    ensures r == Err(NoResults) <==> |bindings| == 0
    ensures |bindings| == 1 ==>
      (r.Ok? <==> HasTypeVariables(bindings[0]) && formatDate(bindings[0]["release_date"]).Some?)
    ensures r.Ok? ==>
      && r.value.Keys == TYPE_KEYS
      && r.value["platform"] == bindings[0]["platform"]
      && Some(r.value["release_date"]) == formatDate(bindings[0]["release_date"])
      && r.value["experiment_type_label"] == bindings[0]["experiment_type_label"]
  {
    if |bindings| > 1 then Err(TooManyResults)
    else if |bindings| == 0 then Err(NoResults)
    else TypeRow(bindings[0], formatDate)
  }

  // ---------------------------------------------------------------------
  // Researcher: fail on more than one; with none, `row` is never bound

  const RESEARCHER_KEYS: set<string> := {"researcher_label", "site_label"}

  predicate HasResearcherVariables(x: Binding) {
    "researcher_label" in x && "site_label" in x
  }

  function ResearcherRow(x: Binding): Result<Record, QueryError> {
    var researcher :- Value(x, "researcher_label");
    var site :- Value(x, "site_label");
    Ok(map["researcher_label" := researcher, "site_label" := site])
  }

  /** `get_researcher_by_experiment` after the query. */
  function ResearcherOf(bindings: seq<Binding>): (r: Result<Record, QueryError>)
    ensures r == Err(TooManyResults) <==> |bindings| > 1
    ensures r == Err(UnboundRow) <==> |bindings| == 0
    ensures |bindings| == 1 ==> (r.Ok? <==> HasResearcherVariables(bindings[0]))
    ensures r.Ok? ==>
      && r.value.Keys == RESEARCHER_KEYS
      && r.value["researcher_label"] == bindings[0]["researcher_label"]
      && r.value["site_label"] == bindings[0]["site_label"]
  {
    if |bindings| > 1 then Err(TooManyResults)
    else if |bindings| == 0 then Err(UnboundRow)
    else ResearcherRow(bindings[0])
  }

  // ---------------------------------------------------------------------
  // Experiment model data

  /** `{**types, **sample, **{"experiment_id": experiment_id}}`: later
      dictionaries win on shared keys. */
  function MergeModelData(types: Record, sample: Record, experimentId: string): (r: Record)
    ensures r.Keys == types.Keys + sample.Keys + {"experiment_id"}
    ensures r["experiment_id"] == experimentId
    ensures forall k :: k in sample && k != "experiment_id" ==> r[k] == sample[k]
    ensures forall k :: k in types && k !in sample && k != "experiment_id" ==> r[k] == types[k]
  {
    types + sample + map["experiment_id" := experimentId]
  }

  const MODEL_DATA_KEYS: set<string> := TYPE_KEYS + SAMPLE_KEYS + {"experiment_id"}

  /** The model-data fields `Experiment.save` reads. */
  predicate HasModelFields(r: Record) {
    "experiment_id" in r && "platform" in r && "experiment_type_label" in r && "sex" in r
  }

  /** `get_experiment_model_data`: the type query, then the sample query,
      merged. A sample query without bindings yields None, which cannot be
      unpacked with `**`. */
  function ExperimentModelData(g: Gateway, experimentId: string): (r: Result<Record, QueryError>)
    ensures r.Ok? ==> HasModelFields(r.value)
    ensures r.Ok? ==> r.value["experiment_id"] == experimentId
    ensures r.Ok? ==> IsLower(r.value["sex"])
    ensures r.Ok? ==>
      var types := GetByExperiment(g, g.queries.experimentTypeByExperiment, experimentId);
      var samples := GetByExperiment(g, g.queries.sampleByExperiment, experimentId);
      && types.Ok? && |types.value| == 1 && HasTypeVariables(types.value[0])
      && samples.Ok? && |samples.value| >= 1 && HasSampleVariables(samples.value[0])
      && r.value["platform"] == types.value[0]["platform"]
      && r.value["experiment_type_label"] == types.value[0]["experiment_type_label"]
      && r.value["sex"] == Lower(samples.value[0]["sex"])
    ensures GetByExperiment(g, g.queries.experimentTypeByExperiment, experimentId) == Ok([]) ==>
      r == Err(NoResults)
  {
    var typeBindings :- GetByExperiment(g, g.queries.experimentTypeByExperiment, experimentId);
    var types :- ExperimentTypeOf(typeBindings, g.formatDate);
    var sampleBindings :- GetByExperiment(g, g.queries.sampleByExperiment, experimentId);
    var sample :- SampleOf(sampleBindings);
    match sample.row
    case None => Err(NotAMapping)
    case Some(s) =>
      MergedModelData(types, s, experimentId);
      Ok(MergeModelData(types, s, experimentId))
  }

  /** A successful result carries exactly the type, sample and id keys. */
  lemma ExperimentModelDataKeys(g: Gateway, experimentId: string)
    ensures ExperimentModelData(g, experimentId).Ok? ==>
      ExperimentModelData(g, experimentId).value.Keys == MODEL_DATA_KEYS
  {
    var typeBindings := GetByExperiment(g, g.queries.experimentTypeByExperiment, experimentId);
    var sampleBindings := GetByExperiment(g, g.queries.sampleByExperiment, experimentId);
    if typeBindings.Ok? && sampleBindings.Ok? {
      var types := ExperimentTypeOf(typeBindings.value, g.formatDate);
      var sample := SampleOf(sampleBindings.value);
      if types.Ok? && sample.Ok? && sample.value.row.Some? {
        MergedModelData(types.value, sample.value.row.value, experimentId);
      }
    }
  }

  lemma MergedModelData(types: Record, sample: Record, experimentId: string)
    requires types.Keys == TYPE_KEYS && sample.Keys == SAMPLE_KEYS && IsLower(sample["sex"])
    ensures var r := MergeModelData(types, sample, experimentId);
      && r.Keys == MODEL_DATA_KEYS && HasModelFields(r)
      && r["platform"] == types["platform"]
      && r["experiment_type_label"] == types["experiment_type_label"]
      && r["sex"] == sample["sex"]
  {
  }

  // ---------------------------------------------------------------------
  // get_image_from_s3

  /** A decoded raster; its pixel layout is left to the codecs. */
  datatype Raster = Raster(width: nat, height: nat, samples: seq<byte>)

  /** The bucket download and the OpenCV/PIL steps, left uninterpreted:
      `decode` is `cv2.imread` (None for an unreadable file), `bgrToRgb` is
      `cv2.cvtColor(..., COLOR_BGR2RGB)`, the encoders are PIL's TIFF and JPEG
      writers (None where `Image.save` raises), and `sha1` is the FIPS 180-4
      digest. */
  datatype ObjectStore = ObjectStore(
    download: string -> Result<seq<byte>, string>,
    decode: seq<byte> -> Option<Raster>,
    bgrToRgb: Raster -> Raster,
    encodeTiff: Raster -> Option<seq<byte>>,
    encodeJpeg: Raster -> Option<seq<byte>>,
    sha1: seq<byte> -> Sha1Digest)

  /** A `SimpleUploadedFile`. */
  datatype Upload = Upload(name: string, content: seq<byte>, contentType: string)

  datatype Fetched = Fetched(orig: Upload, sha1: string, jpeg: Upload)

  datatype FetchError =
    | DownloadFailed(message: string)
    | Undecodable(s3key: string)
    | Unencodable(s3key: string, format: string)

  /** `get_image_from_s3`: the TIFF original named after the key, its hex
      SHA-1, and a JPEG named after the key without its extension. */
  function FetchImage(store: ObjectStore, s3key: string): (r: Result<Fetched, FetchError>)
    ensures r.Ok? <==>
      && store.download(s3key).Ok?
      && store.decode(store.download(s3key).value).Some?
      && var rgb := store.bgrToRgb(store.decode(store.download(s3key).value).value);
         store.encodeTiff(rgb).Some? && store.encodeJpeg(rgb).Some?
    ensures store.download(s3key).Err? ==> r == Err(DownloadFailed(store.download(s3key).error))
    ensures store.download(s3key).Ok? && store.decode(store.download(s3key).value).None? ==>
      r == Err(Undecodable(s3key))
    ensures store.download(s3key).Ok? && store.decode(store.download(s3key).value).Some? ==>
      var rgb := store.bgrToRgb(store.decode(store.download(s3key).value).value);
      && (store.encodeTiff(rgb).None? ==> r == Err(Unencodable(s3key, "TIFF")))
      && (store.encodeTiff(rgb).Some? && store.encodeJpeg(rgb).None? ==> r == Err(Unencodable(s3key, "JPEG")))
    ensures r.Ok? ==>
      var f := r.value;
      && f.orig.name == Basename(s3key)
      && f.jpeg.name == Basename(SplitExt(s3key).0) + ".jpg"
      && f.orig.contentType == "image/tif" && f.jpeg.contentType == "image/jpeg"
      && |f.sha1| == 40
      && ParseHex(f.sha1) == Some(store.sha1(f.orig.content))
    ensures r.Ok? ==>
      var rgb := store.bgrToRgb(store.decode(store.download(s3key).value).value);
      r.value.orig.content == store.encodeTiff(rgb).value && r.value.jpeg.content == store.encodeJpeg(rgb).value
  {
    var stem := SplitExt(s3key).0;
    match store.download(s3key)
    case Err(message) => Err(DownloadFailed(message))
    case Ok(bytes) =>
      match store.decode(bytes)
      case None => Err(Undecodable(s3key))
      case Some(bgr) =>
        var rgb := store.bgrToRgb(bgr);
        match store.encodeTiff(rgb)
        case None => Err(Unencodable(s3key, "TIFF"))
        case Some(tiff) =>
          match store.encodeJpeg(rgb)
          case None => Err(Unencodable(s3key, "JPEG"))
          case Some(jpegBytes) =>
            var orig := Upload(Basename(s3key), tiff, "image/tif");
            var jpeg := Upload(Basename(stem) + ".jpg", jpegBytes, "image/jpeg");
            Ok(Fetched(orig, Sha1Hex(store.sha1(tiff)), jpeg))
  }

  /** The uploads of a fetched image row are named after the row: the
      original keeps the file name, the JPEG is the stem plus `.jpg`. */
  lemma FetchedNamesFollowImageRow(store: ObjectStore, row: ImageRow)
    requires KeyFollowsName(row)
    requires NoSlash(row.imageName)
    ensures FetchImage(store, row.s3key).Ok? ==>
      FetchImage(store, row.s3key).value.orig.name == row.imageName
    ensures FetchImage(store, row.s3key).Ok? ==>
      FetchImage(store, row.s3key).value.jpeg.name == SplitExt(row.imageName).0 + ".jpg"
  {
    ImageKeyNames(row);
  }
}

=== FILE: posix_path.dfy ===
/** The parts of Python's `posixpath` that name S3 keys and uploads:
    `splitext`, `basename` and `join`, over `/` and `.`. */
module PosixPath {

  /** Python's `s.rfind(c)` for one character; -1 when `c` is absent. */
  function RFind(s: string, c: char): (r: int)
    ensures -1 <= r < |s|
    ensures r >= 0 ==> s[r] == c
    ensures forall j :: r < j < |s| ==> s[j] != c
  {
    if |s| == 0 then -1
    else if s[|s| - 1] == c then |s| - 1
    else RFind(s[..|s| - 1], c)
  }

  predicate NoSlash(s: string) {
    forall j :: 0 <= j < |s| ==> s[j] != '/'
  }

  predicate StartsWithSlash(s: string) {
    |s| > 0 && s[0] == '/'
  }

  /** A directory prefix: empty, or ending in a separator. */
  predicate DirPrefix(d: string) {
    |d| == 0 || d[|d| - 1] == '/'
  }

  /** `p[j]` is an ordinary character of the last path component before `k`. */
  predicate StemCharAt(p: string, j: int, k: int) {
    0 <= j < k <= |p| && p[j] != '.' && p[j] != '/' &&
    forall m :: j < m < k ==> p[m] != '/'
  }

  /** `p[k..]` is the extension `splitext` cuts off: it starts at the last dot,
      lies in the last path component, and the component has a character
      before it that is not a dot (so `.bashrc` has no extension). */
  ghost predicate IsExtensionAt(p: string, k: int) {
    0 <= k < |p| && p[k] == '.' &&
    (forall j :: k < j < |p| ==> p[j] != '.' && p[j] != '/') &&
    exists j :: StemCharAt(p, j, k)
  }

  /** `os.path.splitext(p)`: the root and the extension (empty when none). */
  function SplitExt(p: string): (r: (string, string))
    ensures r.0 + r.1 == p
    ensures r.1 == "" || IsExtensionAt(p, |r.0|)
    ensures forall k :: IsExtensionAt(p, k) ==> k == |r.0|
  {
    var sepIndex := RFind(p, '/');
    var dotIndex := RFind(p, '.');
    if dotIndex > sepIndex && exists j :: sepIndex + 1 <= j < dotIndex && p[j] != '.' then
      var j :| sepIndex + 1 <= j < dotIndex && p[j] != '.';
      assert StemCharAt(p, j, dotIndex);
      (p[..dotIndex], p[dotIndex..])
    else
      assert p + "" == p;
      (p, "")
  }

  /** `os.path.basename(p)`: everything after the last separator. */
  function Basename(p: string): (r: string)
    ensures NoSlash(r)
    ensures |r| <= |p| && p[|p| - |r|..] == r
    ensures |r| == |p| || p[|p| - |r| - 1] == '/'
  {
    p[RFind(p, '/') + 1..]
  }

  /** `os.path.join(a, b)`: an absolute `b` replaces `a`; otherwise `b` is
      appended after a separator unless `a` is empty or already ends in one. */
  function Join(a: string, b: string): (r: string)
    ensures |b| <= |r| && r[|r| - |b|..] == b && DirPrefix(r[..|r| - |b|])
    ensures StartsWithSlash(b) ==> r == b
    ensures !StartsWithSlash(b) ==> |a| <= |r| <= |a| + |b| + 1 && r[..|a|] == a
    ensures !StartsWithSlash(b) ==> |r| == |a| + |b| + (if DirPrefix(a) then 0 else 1)
  {
    if StartsWithSlash(b) then b
    else if a == "" || a[|a| - 1] == '/' then a + b
    else a + "/" + b
  }

  /** `os.path.join(a, b, c)`. */
  function Join3(a: string, b: string, c: string): string {
    Join(Join(a, b), c)
  }

  /** The object-key format `<root>/<name>/<filename>` for plain components. */
  lemma Join3Plain(a: string, b: string, c: string)
    requires |a| > 0 && a[|a| - 1] != '/'
    requires |b| > 0 && !StartsWithSlash(b) && b[|b| - 1] != '/'
    requires !StartsWithSlash(c)
    ensures Join3(a, b, c) == a + "/" + b + "/" + c
  {
  }

  /** The last component of a path built on a directory prefix is the
      separator-free name appended to it. */
  lemma BasenameAfterDir(d: string, f: string)
    requires DirPrefix(d) && NoSlash(f)
    ensures Basename(d + f) == f
  {
    var p := d + f;
    var r := Basename(p);
    assert p[|p| - |f|..] == f;
    assert |r| == |f| by {
      assert forall j :: |d| <= j < |p| ==> p[j] == f[j - |d|];
    }
  }

  lemma ExtensionFromWhole(d: string, f: string, k: int)
    requires DirPrefix(d) && NoSlash(f)
    ensures IsExtensionAt(d + f, k) ==> |d| <= k && IsExtensionAt(f, k - |d|)
  {
    var p := d + f;
    if IsExtensionAt(p, k) {
      var j :| StemCharAt(p, j, k);
      StemAfterDir(d, f, j, k);
      var j', k' := j - |d|, k - |d|;
      assert f[j'] == p[j] && f[k'] == p[k];
      forall m | j' < m < k' ensures f[m] != '/' {
        assert f[m] == p[m + |d|];
      }
      assert StemCharAt(f, j', k');
      forall m | k' < m < |f| ensures f[m] != '.' && f[m] != '/' {
        assert f[m] == p[m + |d|];
      }
    }
  }

  /** A stem character of a path built on a directory prefix lies past the prefix. */
  lemma StemAfterDir(d: string, f: string, j: int, k: int)
    requires DirPrefix(d) && IsExtensionAt(d + f, k) && StemCharAt(d + f, j, k)
    ensures |d| <= j
  {
    if |d| > 0 {
      var p := d + f;
      assert p[|d| - 1] == '/';
    }
  }

  lemma ExtensionToWhole(d: string, f: string, k: int)
    requires DirPrefix(d) && NoSlash(f)
    requires IsExtensionAt(f, k)
    ensures IsExtensionAt(d + f, k + |d|)
  {
    var p := d + f;
    var j :| StemCharAt(f, j, k);
    forall m | j + |d| < m < k + |d| ensures p[m] != '/' {
      assert p[m] == f[m - |d|];
    }
    assert StemCharAt(p, j + |d|, k + |d|);
    forall m | k + |d| < m < |p| ensures p[m] != '.' && p[m] != '/' {
      assert p[m] == f[m - |d|];
    }
  }

  /** Splitting the extension of a path built on a directory prefix splits
      the extension of its last component and keeps the prefix. */
  lemma SplitExtAfterDir(d: string, f: string)
    requires DirPrefix(d) && NoSlash(f)
    ensures SplitExt(d + f) == (d + SplitExt(f).0, SplitExt(f).1)
  {
    if SplitExt(f).1 != "" {
      ExtensionKeptAfterDir(d, f);
    } else {
      NoExtensionAfterDir(d, f);
    }
  }

  /** `splitext` cuts at the extension whenever there is one. */
  lemma SplitExtAt(p: string, k: int)
    requires IsExtensionAt(p, k)
    ensures SplitExt(p) == (p[..k], p[k..])
  {
    var r := SplitExt(p);
    assert r.0 == (r.0 + r.1)[..k];
  }

  lemma ExtensionKeptAfterDir(d: string, f: string)
    requires DirPrefix(d) && NoSlash(f)
    requires SplitExt(f).1 != ""
    ensures SplitExt(d + f) == (d + SplitExt(f).0, SplitExt(f).1)
  {
    var k := |SplitExt(f).0|;
    SplitExtAt(f, k);
    ExtensionToWhole(d, f, k);
    SplitExtAt(d + f, |d| + k);
    assert (d + f)[..|d| + k] == d + f[..k];
    assert (d + f)[|d| + k..] == f[k..];
  }

  lemma NoExtensionAfterDir(d: string, f: string)
    requires DirPrefix(d) && NoSlash(f)
    requires SplitExt(f).1 == ""
    ensures SplitExt(d + f) == (d + f, "")
  {
    var (pn, pe) := SplitExt(d + f);
    ExtensionFromWhole(d, f, |pn|);
    assert pe == "";
  }

  /** The stem of a separator-free name is separator-free. */
  lemma StemNoSlash(f: string)
    requires NoSlash(f)
    ensures NoSlash(SplitExt(f).0)
  {
    var stem := SplitExt(f).0;
    assert forall j :: 0 <= j < |stem| ==> stem[j] == f[j];
  }

  /** A separator-free file name joined onto any directory is the basename
      of the result. */
  lemma JoinBasename(a: string, f: string)
    requires NoSlash(f)
    ensures Basename(Join(a, f)) == f
  {
    var p := Join(a, f);
    var d := p[..|p| - |f|];
    assert !StartsWithSlash(f) by {
      if |f| > 0 {
        assert f[0] != '/';
      }
    }
    assert p == d + f;
    BasenameAfterDir(d, f);
  }

  /** Dropping the extension of a separator-free file name joined onto any
      directory leaves the file's stem as the basename. */
  lemma JoinStemBasename(a: string, f: string)
    requires NoSlash(f)
    ensures Basename(SplitExt(Join(a, f)).0) == SplitExt(f).0
  {
    var p := Join(a, f);
    var d := p[..|p| - |f|];
    assert !StartsWithSlash(f) by {
      if |f| > 0 {
        assert f[0] != '/';
      }
    }
    assert p == d + f;
    SplitExtAfterDir(d, f);
    StemNoSlash(f);
    BasenameAfterDir(d, SplitExt(f).0);
  }
}

=== FILE: preload.dfy ===
/** The one pure rule of `preload_analytics_models.py`: an image's
    experiment is named by its image id up to the first underscore. */
module Preload {
  import opened Text

  /** `image_id.split('_')[0]`: the longest prefix free of `_`, ending
      where the first `_` starts (or at the end of the id). */
  function ExperimentIdOfImageId(imageId: string): (id: string)
    ensures !Contains(id, "_")
    ensures id <= imageId
    ensures id == imageId || OccursAt(imageId, "_", |id|)
  {
    match Find(imageId, "_")
    case None => Split(imageId, "_")[0]
    case Some(i) =>
      SplitAt(imageId, "_", i);
      Split(imageId, "_")[0]
  }
}

=== FILE: records.dfy ===
/** The tables of `analytics/models.py` as immutable records, an abstract
    store holding them in retrieval order, the store's integrity invariant
    (column widths, primary and unique keys, foreign keys, the one-to-one
    link from a trained model to its image set), and `Experiment.save`. */
module Records {
  import opened Wrappers
  import opened Hex
  import Lungmap

  // Column widths (`max_length`).
  const EXPERIMENT_ID_WIDTH := 25
  const PLATFORM_WIDTH := 35
  const EXPERIMENT_TYPE_WIDTH := 35
  const SEX_WIDTH := 20
  const IMAGE_SET_NAME_WIDTH := 200
  const MAGNIFICATION_WIDTH := 20
  const SPECIES_WIDTH := 25
  const DEVELOPMENT_STAGE_WIDTH := 100
  const PROBE_LABEL_WIDTH := 100
  const S3KEY_WIDTH := 200
  const IMAGE_NAME_WIDTH := 200
  const IMAGE_ID_WIDTH := 40
  const SCALING_WIDTH := 65
  const SHA1_WIDTH := 40
  const ANATOMY_NAME_WIDTH := 100

  /** The range of an `IntegerField` column (a signed 32-bit integer). */
  predicate IsInt32(n: int) {
    -0x8000_0000 <= n < 0x8000_0000
  }

  /** A nullable character column of the given width. */
  predicate FitsOpt(v: Option<string>, width: nat) {
    v.None? || |v.value| <= width
  }

  datatype Experiment = Experiment(
    experimentId: string,
    platform: Option<string>,
    experimentType: Option<string>,
    sex: Option<string>)

  datatype ImageSet = ImageSet(
    id: nat,
    imageSetName: string,
    magnification: string,
    species: string,
    developmentStage: Option<string>)

  datatype Probe = Probe(id: nat, probeLabel: string)

  /** A `FileField` value: the stored name (`''` when no file is attached;
      the ORM writes `''` rather than NULL) and the bytes behind it. */
  datatype FieldFile = FieldFile(name: string, content: seq<byte>)

  const NO_FILE := FieldFile("", [])

  datatype Image = Image(
    id: nat,
    s3key: string,
    imageName: string,
    imageSetId: nat,
    experimentId: string,
    imageId: string,
    xScaling: Option<string>,
    yScaling: Option<string>,
    imageOrig: FieldFile,
    imageOrigSha1: Option<string>,
    imageJpeg: FieldFile)

  datatype Anatomy = Anatomy(id: nat, name: string)

  datatype Subregion = Subregion(id: nat, imageId: nat, anatomyId: nat)

  /** A polygon vertex (`Points`). */
  datatype Point = Point(id: nat, subregionId: nat, x: int, y: int, order: int)

  datatype TrainedModel = TrainedModel(id: nat, imageSetId: nat, modelObject: FieldFile)

  /** The store: every table in retrieval order. */
  datatype Db = Db(
    experiments: seq<Experiment>,
    imageSets: seq<ImageSet>,
    probes: seq<Probe>,
    images: seq<Image>,
    anatomies: seq<Anatomy>,
    subregions: seq<Subregion>,
    points: seq<Point>,
    trainedModels: seq<TrainedModel>)

  datatype StoreError = DataTooLong(table: string) | IntegrityError(constraint: string)

  // ---------------------------------------------------------------------
  // Row shapes

  predicate ExperimentFits(e: Experiment) {
    && |e.experimentId| <= EXPERIMENT_ID_WIDTH
    && FitsOpt(e.platform, PLATFORM_WIDTH)
    && FitsOpt(e.experimentType, EXPERIMENT_TYPE_WIDTH)
    && FitsOpt(e.sex, SEX_WIDTH)
  }

  predicate ImageSetFits(s: ImageSet) {
    && |s.imageSetName| <= IMAGE_SET_NAME_WIDTH
    && |s.magnification| <= MAGNIFICATION_WIDTH
    && |s.species| <= SPECIES_WIDTH
    && FitsOpt(s.developmentStage, DEVELOPMENT_STAGE_WIDTH)
  }

  predicate ImageFits(im: Image) {
    && |im.s3key| <= S3KEY_WIDTH
    && |im.imageName| <= IMAGE_NAME_WIDTH
    && |im.imageId| <= IMAGE_ID_WIDTH
    && FitsOpt(im.xScaling, SCALING_WIDTH)
    && FitsOpt(im.yScaling, SCALING_WIDTH)
    && FitsOpt(im.imageOrigSha1, SHA1_WIDTH)
  }

  predicate PointFits(p: Point) {
    IsInt32(p.x) && IsInt32(p.y) && IsInt32(p.order)
  }

  // ---------------------------------------------------------------------
  // Keys

  predicate ExperimentIdIn(rows: seq<Experiment>, id: string) {
    exists i :: 0 <= i < |rows| && rows[i].experimentId == id
  }

  predicate ImageSetIdIn(rows: seq<ImageSet>, id: nat) {
    exists i :: 0 <= i < |rows| && rows[i].id == id
  }

  predicate ImageIdIn(rows: seq<Image>, id: nat) {
    exists i :: 0 <= i < |rows| && rows[i].id == id
  }

  predicate AnatomyIdIn(rows: seq<Anatomy>, id: nat) {
    exists i :: 0 <= i < |rows| && rows[i].id == id
  }

  predicate SubregionIdIn(rows: seq<Subregion>, id: nat) {
    exists i :: 0 <= i < |rows| && rows[i].id == id
  }

  predicate TrainedModelFor(rows: seq<TrainedModel>, imageSetId: nat) {
    exists i :: 0 <= i < |rows| && rows[i].imageSetId == imageSetId
  }

  // ---------------------------------------------------------------------
  // Table invariants

  /** `experiment_id` is the primary key, at most 25 characters. */
  predicate ExperimentsOk(rows: seq<Experiment>) {
    && (forall i :: 0 <= i < |rows| ==> ExperimentFits(rows[i]))
    && (forall i, j :: 0 <= i < j < |rows| ==> rows[i].experimentId != rows[j].experimentId)
  }

  /** `image_set_name` is unique. */
  predicate ImageSetsOk(rows: seq<ImageSet>) {
    && (forall i :: 0 <= i < |rows| ==> ImageSetFits(rows[i]))
    && (forall i, j :: 0 <= i < j < |rows| ==> rows[i].id != rows[j].id)
    && (forall i, j :: 0 <= i < j < |rows| ==> rows[i].imageSetName != rows[j].imageSetName)
  }

  /** `label` is unique. */
  predicate ProbesOk(rows: seq<Probe>) {
    && (forall i :: 0 <= i < |rows| ==> |rows[i].probeLabel| <= PROBE_LABEL_WIDTH)
    && (forall i, j :: 0 <= i < j < |rows| ==> rows[i].id != rows[j].id)
    && (forall i, j :: 0 <= i < j < |rows| ==> rows[i].probeLabel != rows[j].probeLabel)
  }

  /** An image belongs to an existing image set and experiment; its SHA-1
      column holds at most 40 characters. */
  predicate ImagesOk(rows: seq<Image>, imageSets: seq<ImageSet>, experiments: seq<Experiment>) {
    && (forall i :: 0 <= i < |rows| ==> ImageFits(rows[i]))
    && (forall i, j :: 0 <= i < j < |rows| ==> rows[i].id != rows[j].id)
    && (forall i :: 0 <= i < |rows| ==> ImageSetIdIn(imageSets, rows[i].imageSetId))
    && (forall i :: 0 <= i < |rows| ==> ExperimentIdIn(experiments, rows[i].experimentId))
  }

  /** `name` is unique. */
  predicate AnatomiesOk(rows: seq<Anatomy>) {
    && (forall i :: 0 <= i < |rows| ==> |rows[i].name| <= ANATOMY_NAME_WIDTH)
    && (forall i, j :: 0 <= i < j < |rows| ==> rows[i].id != rows[j].id)
    && (forall i, j :: 0 <= i < j < |rows| ==> rows[i].name != rows[j].name)
  }

  /** A sub-region belongs to one existing image and one existing anatomy. */
  predicate SubregionsOk(rows: seq<Subregion>, images: seq<Image>, anatomies: seq<Anatomy>) {
    && (forall i, j :: 0 <= i < j < |rows| ==> rows[i].id != rows[j].id)
    && (forall i :: 0 <= i < |rows| ==> ImageIdIn(images, rows[i].imageId))
    && (forall i :: 0 <= i < |rows| ==> AnatomyIdIn(anatomies, rows[i].anatomyId))
  }

  /** A point belongs to one existing sub-region and carries 32-bit integers. */
  predicate PointsOk(rows: seq<Point>, subregions: seq<Subregion>) {
    && (forall i :: 0 <= i < |rows| ==> PointFits(rows[i]))
    && (forall i, j :: 0 <= i < j < |rows| ==> rows[i].id != rows[j].id)
    && (forall i :: 0 <= i < |rows| ==> SubregionIdIn(subregions, rows[i].subregionId))
  }

  /** `imageset` is a one-to-one link: at most one trained model per set. */
  predicate TrainedModelsOk(rows: seq<TrainedModel>, imageSets: seq<ImageSet>) {
    && (forall i, j :: 0 <= i < j < |rows| ==> rows[i].id != rows[j].id)
    && (forall i, j :: 0 <= i < j < |rows| ==> rows[i].imageSetId != rows[j].imageSetId)
    && (forall i :: 0 <= i < |rows| ==> ImageSetIdIn(imageSets, rows[i].imageSetId))
  }

  /** Every sub-region's anatomy exists (part of `Valid`). */
  predicate AnatomiesKnown(db: Db) {
    forall i :: 0 <= i < |db.subregions| ==> AnatomyIdIn(db.anatomies, db.subregions[i].anatomyId)
  }

  /** The store's integrity: every table's invariant, foreign keys included. */
  predicate Valid(db: Db) {
    && ExperimentsOk(db.experiments)
    && ImageSetsOk(db.imageSets)
    && ProbesOk(db.probes)
    && ImagesOk(db.images, db.imageSets, db.experiments)
    && AnatomiesOk(db.anatomies)
    && SubregionsOk(db.subregions, db.images, db.anatomies)
    && PointsOk(db.points, db.subregions)
    && TrainedModelsOk(db.trainedModels, db.imageSets)
  }

  // ---------------------------------------------------------------------
  // Lookups by primary key

  function FindExperiment(rows: seq<Experiment>, id: string): (r: Option<nat>)
    ensures r.Some? ==> r.value < |rows| && rows[r.value].experimentId == id
    ensures r.None? <==> !ExperimentIdIn(rows, id)
  {
    if |rows| == 0 then None
    else if rows[|rows| - 1].experimentId == id then Some(|rows| - 1)
    else
      var r := FindExperiment(rows[..|rows| - 1], id);
      assert forall i :: 0 <= i < |rows| - 1 ==> rows[..|rows| - 1][i] == rows[i];
      r
  }

  function FindImageSet(rows: seq<ImageSet>, id: nat): (r: Option<nat>)
    ensures r.Some? ==> r.value < |rows| && rows[r.value].id == id
    ensures r.None? <==> !ImageSetIdIn(rows, id)
  {
    if |rows| == 0 then None
    else if rows[|rows| - 1].id == id then Some(|rows| - 1)
    else
      var r := FindImageSet(rows[..|rows| - 1], id);
      assert forall i :: 0 <= i < |rows| - 1 ==> rows[..|rows| - 1][i] == rows[i];
      r
  }

  function FindImage(rows: seq<Image>, id: nat): (r: Option<nat>)
    ensures r.Some? ==> r.value < |rows| && rows[r.value].id == id
    ensures r.None? <==> !ImageIdIn(rows, id)
  {
    if |rows| == 0 then None
    else if rows[|rows| - 1].id == id then Some(|rows| - 1)
    else
      var r := FindImage(rows[..|rows| - 1], id);
      assert forall i :: 0 <= i < |rows| - 1 ==> rows[..|rows| - 1][i] == rows[i];
      r
  }

  function FindAnatomy(rows: seq<Anatomy>, id: nat): (r: Option<nat>)
    ensures r.Some? ==> r.value < |rows| && rows[r.value].id == id
    ensures r.None? <==> !AnatomyIdIn(rows, id)
  {
    if |rows| == 0 then None
    else if rows[|rows| - 1].id == id then Some(|rows| - 1)
    else
      var r := FindAnatomy(rows[..|rows| - 1], id);
      assert forall i :: 0 <= i < |rows| - 1 ==> rows[..|rows| - 1][i] == rows[i];
      r
  }

  /** `subregion.anatomy.name`: the name of the anatomy a foreign key points at. */
  function AnatomyName(rows: seq<Anatomy>, id: nat): (name: string)
    requires AnatomyIdIn(rows, id)
    ensures exists i :: 0 <= i < |rows| && rows[i].id == id && rows[i].name == name
  {
    rows[FindAnatomy(rows, id).value].name
  }

  /** The experiment row with the given primary key. */
  function ExperimentRow(db: Db, id: string): Option<Experiment> {
    match FindExperiment(db.experiments, id)
    case None => None
    case Some(i) => Some(db.experiments[i])
  }

  // ---------------------------------------------------------------------
  // Experiment.save

  /** The row write of `Model.save` for an experiment: UPDATE when the
      primary key exists, INSERT otherwise; an over-wide value is a
      `DataError`. */
  function PutExperiment(db: Db, e: Experiment): (r: Result<Db, StoreError>)
    requires ExperimentsOk(db.experiments)
    ensures r.Err? <==> !ExperimentFits(e)
    ensures r.Ok? ==> r.value == db.(experiments := r.value.experiments)
    ensures r.Ok? ==> ExperimentsOk(r.value.experiments)
    ensures r.Ok? ==> ExperimentRow(r.value, e.experimentId) == Some(e)
    ensures r.Ok? ==> forall i :: 0 <= i < |db.experiments| && db.experiments[i].experimentId != e.experimentId ==>
      db.experiments[i] in r.value.experiments
    ensures r.Ok? ==> forall x :: x in r.value.experiments && x != e ==> x in db.experiments
  {
    if !ExperimentFits(e) then Err(DataTooLong("analytics_experiment"))
    else match FindExperiment(db.experiments, e.experimentId)
      case Some(i) =>
        UpdateExperiment(db.experiments, i, e);
        Ok(db.(experiments := db.experiments[i := e]))
      case None =>
        AppendExperiment(db.experiments, e);
        Ok(db.(experiments := db.experiments + [e]))
  }

  lemma UpdateExperiment(rows: seq<Experiment>, i: nat, e: Experiment)
    requires ExperimentsOk(rows) && ExperimentFits(e)
    requires i < |rows| && rows[i].experimentId == e.experimentId
    ensures ExperimentsOk(rows[i := e])
    ensures FindExperiment(rows[i := e], e.experimentId) == Some(i)
    ensures forall k :: 0 <= k < |rows| && rows[k].experimentId != e.experimentId ==> rows[k] in rows[i := e]
    ensures forall x :: x in rows[i := e] && x != e ==> x in rows
  {
    var rows' := rows[i := e];
    forall k | 0 <= k < |rows| && rows[k].experimentId != e.experimentId ensures rows[k] in rows' {
      assert rows'[k] == rows[k];
    }
    forall x | x in rows' && x != e ensures x in rows {
      var k :| 0 <= k < |rows'| && rows'[k] == x;
      assert rows[k] == x;
    }
    var j := FindExperiment(rows', e.experimentId);
    assert rows'[i].experimentId == e.experimentId;
  }

  lemma AppendExperiment(rows: seq<Experiment>, e: Experiment)
    requires ExperimentsOk(rows) && ExperimentFits(e)
    requires !ExperimentIdIn(rows, e.experimentId)
    ensures ExperimentsOk(rows + [e])
    ensures FindExperiment(rows + [e], e.experimentId) == Some(|rows|)
  {
    AppendedFits(rows, e);
    AppendedDistinct(rows, e);
    var rows' := rows + [e];
    assert rows'[|rows'| - 1] == e;
  }

  lemma AppendedFits(rows: seq<Experiment>, e: Experiment)
    requires forall i :: 0 <= i < |rows| ==> ExperimentFits(rows[i])
    requires ExperimentFits(e)
    ensures forall i :: 0 <= i < |rows + [e]| ==> ExperimentFits((rows + [e])[i])
  {
    var rows' := rows + [e];
    forall i | 0 <= i < |rows'| ensures ExperimentFits(rows'[i]) {
      if i < |rows| {
        assert rows'[i] == rows[i];
      }
    }
  }

  lemma AppendedDistinct(rows: seq<Experiment>, e: Experiment)
    requires forall i, j :: 0 <= i < j < |rows| ==> rows[i].experimentId != rows[j].experimentId
    requires !ExperimentIdIn(rows, e.experimentId)
    ensures forall i, j :: 0 <= i < j < |rows + [e]| ==> (rows + [e])[i].experimentId != (rows + [e])[j].experimentId
  {
    var rows' := rows + [e];
    forall i, j | 0 <= i < j < |rows'| ensures rows'[i].experimentId != rows'[j].experimentId {
      assert rows'[i] == rows[i];
      if j < |rows| {
        assert rows'[j] == rows[j];
      }
    }
  }

  datatype SaveError = Metadata(queryError: Lungmap.QueryError) | Store(storeError: StoreError)

  /** The row `Experiment.save` writes: the key of `e` with `platform`,
      `experiment_type` (from `experiment_type_label`) and `sex` taken from
      the metadata. */
  function SavedRow(e: Experiment, md: Lungmap.Record): Experiment
    requires Lungmap.HasModelFields(md)
  {
    Experiment(e.experimentId, Some(md["platform"]), Some(md["experiment_type_label"]), Some(md["sex"]))
  }

  /** `Experiment.save`: fetch the experiment's metadata, overwrite
      `platform`, `experiment_type` (from `experiment_type_label`) and `sex`,
      then write the row. A failed fetch propagates and writes nothing. */
  function SaveExperiment(db: Db, g: Lungmap.Gateway, e: Experiment): (r: Result<Db, SaveError>)
    requires Valid(db)
    ensures Lungmap.ExperimentModelData(g, e.experimentId).Err? ==>
      r == Err(Metadata(Lungmap.ExperimentModelData(g, e.experimentId).error))
    ensures Lungmap.ExperimentModelData(g, e.experimentId).Ok? ==>
      var md := Lungmap.ExperimentModelData(g, e.experimentId).value;
      (r.Err? <==> !ExperimentFits(SavedRow(e, md)))
    ensures r.Ok? ==> Valid(r.value)
    ensures r.Ok? ==> r.value == db.(experiments := r.value.experiments)
    ensures r.Ok? ==>
      var md := Lungmap.ExperimentModelData(g, e.experimentId);
      && md.Ok?
      && ExperimentRow(r.value, e.experimentId) == Some(SavedRow(e, md.value))
    ensures r.Ok? ==> forall i :: 0 <= i < |db.experiments| && db.experiments[i].experimentId != e.experimentId ==>
      db.experiments[i] in r.value.experiments
    ensures r.Ok? ==>
      var md := Lungmap.ExperimentModelData(g, e.experimentId).value;
      forall x :: (x in r.value.experiments &&
        x != SavedRow(e, md)) ==>
        x in db.experiments
  {
    match Lungmap.ExperimentModelData(g, e.experimentId)
    case Err(cause) => Err(Metadata(cause))
    case Ok(md) =>
      match SaveModelData(db, e, md)
      case Err(cause) => Err(Store(cause))
      case Ok(db') => Ok(db')
  }

  /** The write half of `Experiment.save`, once the metadata is in hand. */
  function SaveModelData(db: Db, e: Experiment, md: Lungmap.Record): (r: Result<Db, StoreError>)
    requires Valid(db) && Lungmap.HasModelFields(md)
    ensures r.Err? <==>
      !ExperimentFits(SavedRow(e, md))
    ensures r.Ok? ==> Valid(r.value)
    ensures r.Ok? ==> r.value == db.(experiments := r.value.experiments)
    ensures r.Ok? ==>
      ExperimentRow(r.value, e.experimentId) ==
        Some(SavedRow(e, md))
    ensures r.Ok? ==> forall i :: 0 <= i < |db.experiments| && db.experiments[i].experimentId != e.experimentId ==>
      db.experiments[i] in r.value.experiments
    ensures r.Ok? ==> forall x :: (x in r.value.experiments &&
      x != SavedRow(e, md)) ==>
      x in db.experiments
  {
    var saved := SavedRow(e, md);
    match PutExperiment(db, saved)
    case Err(cause) => Err(cause)
    case Ok(db') =>
      ExperimentKeysKept(db.experiments, db'.experiments, saved);
      ExperimentWriteKeepsValid(db, db'.experiments);
      Ok(db')
  }

  /** Replacing the experiment table keeps the store valid as long as the new
      table is well formed and loses no experiment key. */
  lemma ExperimentWriteKeepsValid(db: Db, rows': seq<Experiment>)
    requires Valid(db) && ExperimentsOk(rows')
    requires forall id :: ExperimentIdIn(db.experiments, id) ==> ExperimentIdIn(rows', id)
    ensures Valid(db.(experiments := rows'))
  {
    var images := db.images;
    forall i | 0 <= i < |images| ensures ExperimentIdIn(rows', images[i].experimentId) {
      assert ExperimentIdIn(db.experiments, images[i].experimentId);
    }
  }

  /** Rewriting or adding one experiment keeps every experiment key that was
      there, so no image loses its experiment. */
  lemma ExperimentKeysKept(rows: seq<Experiment>, rows': seq<Experiment>, e: Experiment)
    requires e in rows'
    requires forall i :: 0 <= i < |rows| && rows[i].experimentId != e.experimentId ==> rows[i] in rows'
    ensures forall id :: ExperimentIdIn(rows, id) ==> ExperimentIdIn(rows', id)
  {
    forall id | ExperimentIdIn(rows, id) ensures ExperimentIdIn(rows', id) {
      var i :| 0 <= i < |rows| && rows[i].experimentId == id;
      var x := if id == e.experimentId then e else rows[i];
      var j :| 0 <= j < |rows'| && rows'[j] == x;
    }
  }

  // ---------------------------------------------------------------------
  // Image rows

  function ImageRow(db: Db, id: nat): Option<Image> {
    match FindImage(db.images, id)
    case None => None
    case Some(i) => Some(db.images[i])
  }

  /** Saving an existing image row: same primary key, rewritten columns. */
  function PutImage(db: Db, im: Image): (r: Result<Db, StoreError>)
    requires Valid(db)
    requires ImageRow(db, im.id).Some?
    requires ImageRow(db, im.id).value.imageSetId == im.imageSetId
    requires ImageRow(db, im.id).value.experimentId == im.experimentId
    ensures r.Err? <==> !ImageFits(im)
    ensures r.Ok? ==> Valid(r.value)
    ensures r.Ok? ==> r.value == db.(images := db.images[FindImage(db.images, im.id).value := im])
    ensures r.Ok? ==> ImageRow(r.value, im.id) == Some(im)
  {
    if !ImageFits(im) then Err(DataTooLong("analytics_image"))
    else
      var i := FindImage(db.images, im.id).value;
      var db' := db.(images := db.images[i := im]);
      ReplaceImage(db, i, im);
      Ok(db')
  }

  lemma ReplaceImage(db: Db, i: nat, im: Image)
    requires Valid(db) && ImageFits(im)
    requires i < |db.images| && db.images[i].id == im.id
    requires db.images[i].imageSetId == im.imageSetId && db.images[i].experimentId == im.experimentId
    ensures Valid(db.(images := db.images[i := im]))
    ensures FindImage(db.images[i := im], im.id) == Some(i)
  {
    var rows := db.images[i := im];
    forall id | ImageIdIn(db.images, id) ensures ImageIdIn(rows, id) {
      var k :| 0 <= k < |db.images| && db.images[k].id == id;
      assert rows[k].id == id;
    }
    var j := FindImage(rows, im.id);
    assert rows[i].id == im.id;
  }

  predicate DistinctImageIds(images: seq<Image>) {
    forall i, j :: 0 <= i < j < |images| ==> images[i].id != images[j].id
  }

  /** `image_set.image_set`: the set's images in retrieval order. */
  function ImagesOfSet(images: seq<Image>, imageSetId: nat): (r: seq<Image>)
    ensures forall im :: im in r <==> im in images && im.imageSetId == imageSetId
    ensures |r| <= |images|
  {
    if |images| == 0 then []
    else
      var rest := ImagesOfSet(images[1..], imageSetId);
      assert forall im :: im in images <==> im == images[0] || im in images[1..];
      if images[0].imageSetId == imageSetId then [images[0]] + rest else rest
  }

  /** The set's images keep the distinct keys of the image table. */
  lemma {:induction false} ImagesOfSetDistinct(images: seq<Image>, imageSetId: nat)
    requires DistinctImageIds(images)
    ensures DistinctImageIds(ImagesOfSet(images, imageSetId))
    decreases |images|
  {
    if |images| > 0 {
      var rest := ImagesOfSet(images[1..], imageSetId);
      assert DistinctImageIds(images[1..]) by {
        forall i, j | 0 <= i < j < |images[1..]| ensures images[1..][i].id != images[1..][j].id {
          assert images[1..][i] == images[i + 1] && images[1..][j] == images[j + 1];
        }
      }
      ImagesOfSetDistinct(images[1..], imageSetId);
      if images[0].imageSetId == imageSetId {
        forall x | x in rest ensures x.id != images[0].id {
          var k :| 0 <= k < |images[1..]| && images[1..][k] == x;
          assert images[k + 1] == x;
        }
        DistinctCons(images[0], rest);
      }
    }
  }

  /** A row whose key no other row carries can go in front. */
  lemma DistinctCons(im: Image, rest: seq<Image>)
    requires DistinctImageIds(rest)
    requires forall x :: x in rest ==> x.id != im.id
    ensures DistinctImageIds([im] + rest)
  {
    var r := [im] + rest;
    forall i, j | 0 <= i < j < |r| ensures r[i].id != r[j].id {
      assert r[j] == rest[j - 1];
      if i > 0 {
        assert r[i] == rest[i - 1];
      }
    }
  }

  /** `image.subregion_set.all()` in retrieval order. */
  function SubregionsOf(subregions: seq<Subregion>, imageId: nat): (r: seq<Subregion>)
    ensures forall s :: s in r <==> s in subregions && s.imageId == imageId
    ensures |r| <= |subregions|
  {
    if |subregions| == 0 then []
    else
      var rest := SubregionsOf(subregions[1..], imageId);
      assert forall s :: s in subregions <==> s == subregions[0] || s in subregions[1..];
      if subregions[0].imageId == imageId then [subregions[0]] + rest else rest
  }

  /** `subregion.points.all()` in retrieval order; the `order` column does
      not sort them. */
  function PointsOf(points: seq<Point>, subregionId: nat): (r: seq<Point>)
    ensures forall p :: p in r <==> p in points && p.subregionId == subregionId
    ensures |r| <= |points|
  {
    if |points| == 0 then []
    else
      var rest := PointsOf(points[1..], subregionId);
      assert forall p :: p in points <==> p == points[0] || p in points[1..];
      if points[0].subregionId == subregionId then [points[0]] + rest else rest
  }

  /** `ImagesOfSet` keeps table order and lists each matching row once: a
      single row gives itself or nothing, and a split table gives the two
      results one after the other. */
  lemma {:induction false} ImagesOfSetConcat(a: seq<Image>, b: seq<Image>, imageSetId: nat)
    ensures ImagesOfSet([], imageSetId) == []
    ensures forall im: Image :: ImagesOfSet([im], imageSetId) == if im.imageSetId == imageSetId then [im] else []
    ensures ImagesOfSet(a + b, imageSetId) == ImagesOfSet(a, imageSetId) + ImagesOfSet(b, imageSetId)
    decreases |a|
  {
    forall im: Image ensures ImagesOfSet([im], imageSetId) == if im.imageSetId == imageSetId then [im] else [] {
      ImagesOfSetCons(im, [], imageSetId);
      assert [im] + [] == [im];
    }
    if |a| > 0 {
      ImagesOfSetConcat(a[1..], b, imageSetId);
      HeadTail(a, b);
      ImagesOfSetCons(a[0], a[1..], imageSetId);
      ImagesOfSetCons(a[0], a[1..] + b, imageSetId);
      var h := if a[0].imageSetId == imageSetId then [a[0]] else [];
      Regroup(h, ImagesOfSet(a[1..], imageSetId), ImagesOfSet(b, imageSetId));
    } else {
      assert a + b == b;
    }
  }

  /** A non-empty sequence is its head before its tail, also in front of
      another sequence. */
  lemma Regroup<T>(h: seq<T>, x: seq<T>, y: seq<T>)
    ensures h + (x + y) == (h + x) + y
  {
  }

  lemma HeadTail<T>(a: seq<T>, b: seq<T>)
    requires |a| > 0
    ensures [a[0]] + a[1..] == a
    ensures [a[0]] + (a[1..] + b) == a + b
  {
    assert [a[0]] + (a[1..] + b) == ([a[0]] + a[1..]) + b;
  }

  /** One step of the filter: the head row, if it matches, before the
      filtered rest. */
  lemma ImagesOfSetCons(im: Image, rest: seq<Image>, imageSetId: nat)
    ensures ImagesOfSet([im] + rest, imageSetId) ==
      (if im.imageSetId == imageSetId then [im] else []) + ImagesOfSet(rest, imageSetId)
  {
    assert ([im] + rest)[0] == im;
    assert ([im] + rest)[1..] == rest;
  }

  /** `SubregionsOf` keeps table order and lists each matching row once: a
      single row gives itself or nothing, and a split table gives the two
      results one after the other. */
  lemma {:induction false} SubregionsOfConcat(a: seq<Subregion>, b: seq<Subregion>, imageId: nat)
    ensures SubregionsOf([], imageId) == []
    ensures forall sr: Subregion :: SubregionsOf([sr], imageId) == if sr.imageId == imageId then [sr] else []
    ensures SubregionsOf(a + b, imageId) == SubregionsOf(a, imageId) + SubregionsOf(b, imageId)
    decreases |a|
  {
    forall sr: Subregion ensures SubregionsOf([sr], imageId) == if sr.imageId == imageId then [sr] else [] {
      assert [sr][1..] == [];
    }
    if |a| > 0 {
      assert (a + b)[0] == a[0];
      assert (a + b)[1..] == a[1..] + b;
      SubregionsOfConcat(a[1..], b, imageId);
    } else {
      assert a + b == b;
    }
  }

  /** `PointsOf` keeps table order and lists each matching row once: a
      single row gives itself or nothing, and a split table gives the two
      results one after the other. */
  lemma {:induction false} PointsOfConcat(a: seq<Point>, b: seq<Point>, subregionId: nat)
    ensures PointsOf([], subregionId) == []
    ensures forall p: Point :: PointsOf([p], subregionId) == if p.subregionId == subregionId then [p] else []
    ensures PointsOf(a + b, subregionId) == PointsOf(a, subregionId) + PointsOf(b, subregionId)
    decreases |a|
  {
    forall p: Point ensures PointsOf([p], subregionId) == if p.subregionId == subregionId then [p] else [] {
      assert [p][1..] == [];
    }
    if |a| > 0 {
      assert (a + b)[0] == a[0];
      assert (a + b)[1..] == a[1..] + b;
      PointsOfConcat(a[1..], b, subregionId);
    } else {
      assert a + b == b;
    }
  }

  // ---------------------------------------------------------------------
  // Trained models

  /** A primary key above every one in use, as an auto-increment column
      hands out. */
  function NextTrainedModelId(rows: seq<TrainedModel>): (id: nat)
    ensures forall i :: 0 <= i < |rows| ==> rows[i].id < id
  {
    if |rows| == 0 then 1
    else
      var rest := NextTrainedModelId(rows[..|rows| - 1]);
      assert forall i :: 0 <= i < |rows| - 1 ==> rows[..|rows| - 1][i] == rows[i];
      if rows[|rows| - 1].id < rest then rest else rows[|rows| - 1].id + 1
  }

  /** Inserting a trained model: the one-to-one `imageset` column refuses a
      second model for the same image set. */
  function InsertTrainedModel(db: Db, imageSetId: nat, modelObject: FieldFile): (r: Result<Db, StoreError>)
    requires Valid(db) && ImageSetIdIn(db.imageSets, imageSetId)
    ensures r.Err? <==> TrainedModelFor(db.trainedModels, imageSetId)
    ensures r.Ok? ==> Valid(r.value)
    ensures r.Ok? ==> r.value == db.(trainedModels := db.trainedModels +
      [TrainedModel(NextTrainedModelId(db.trainedModels), imageSetId, modelObject)])
  {
    if TrainedModelFor(db.trainedModels, imageSetId) then Err(IntegrityError("analytics_trainedmodel.imageset_id"))
    else
      var tm := TrainedModel(NextTrainedModelId(db.trainedModels), imageSetId, modelObject);
      var rows := db.trainedModels + [tm];
      assert forall k :: 0 <= k < |db.trainedModels| ==> rows[k] == db.trainedModels[k];
      Ok(db.(trainedModels := rows))
  }
}

=== FILE: text.dfy ===
/** Python string primitives the gateway relies on: `str.find`, `str.split`
    with a non-empty separator, `sep.join`, `str.replace` and `str.lower`. */
module Text {
  import opened Wrappers

  /** `sep` occurs in `s` starting at index `i`. */
  predicate OccursAt(s: string, sep: string, i: int) {
    0 <= i && i + |sep| <= |s| && s[i..i + |sep|] == sep
  }

  predicate Contains(s: string, sep: string) {
    exists i :: 0 <= i <= |s| && OccursAt(s, sep, i)
  }

  /** No occurrence of `sep` starts in `s[lo..hi]`. */
  predicate NoneBetween(s: string, sep: string, lo: int, hi: int) {
    forall j :: lo <= j < hi ==> !OccursAt(s, sep, j)
  }

  /** `i` is the leftmost occurrence of `sep` at or after `lo`. */
  predicate FirstFrom(s: string, sep: string, lo: int, i: int) {
    lo <= i && OccursAt(s, sep, i) && NoneBetween(s, sep, lo, i)
  }

  /** A separator is borderless when no proper prefix of it is also a suffix;
      occurrences of such a separator can never overlap one another. */
  predicate Borderless(sep: string) {
    forall k :: 0 < k < |sep| ==> sep[..k] != sep[|sep| - k..]
  }

  lemma OccursAtShift(s: string, sep: string, k: nat, j: int)
    requires k <= |s|
    ensures OccursAt(s[k..], sep, j) <==> (0 <= j && OccursAt(s, sep, j + k))
  {
    if 0 <= j && j + |sep| <= |s| - k {
      assert s[k..][j..j + |sep|] == s[j + k..j + k + |sep|];
    }
  }

  lemma OccursAtPrefix(s: string, sep: string, n: nat, j: int)
    requires n <= |s|
    requires OccursAt(s[..n], sep, j)
    ensures OccursAt(s, sep, j)
  {
    assert s[..n][j..j + |sep|] == s[j..j + |sep|];
  }

  /** Python's `s.find(sep)`: the leftmost occurrence, or None for -1. */
  function Find(s: string, sep: string): (r: Option<nat>)
    requires |sep| > 0
    ensures r.Some? ==> FirstFrom(s, sep, 0, r.value)
    ensures r.None? ==> !Contains(s, sep)
    decreases |s|
  {
    if |s| < |sep| then None
    else if s[..|sep|] == sep then Some(0)
    else
      var rest := Find(s[1..], sep);
      assert !OccursAt(s, sep, 0);
      assert forall j {:trigger OccursAt(s, sep, j)} :: 1 <= j ==>
        (OccursAt(s, sep, j) <==> OccursAt(s[1..], sep, j - 1)) by {
        forall j | 1 <= j ensures OccursAt(s, sep, j) <==> OccursAt(s[1..], sep, j - 1) {
          OccursAtShift(s, sep, 1, j - 1);
        }
      }
      match rest
      case None => None
      case Some(i) => Some(i + 1)
  }

  /** Python's `s.split(sep)` for a non-empty separator. */
  function Split(s: string, sep: string): (parts: seq<string>)
    requires |sep| > 0
    ensures |parts| >= 1
    ensures forall k :: 0 <= k < |parts| ==> !Contains(parts[k], sep)
    decreases |s|
  {
    match Find(s, sep)
    case None => [s]
    case Some(i) =>
      var head := s[..i];
      assert !Contains(head, sep) by {
        forall j | OccursAt(head, sep, j) ensures false {
          OccursAtPrefix(s, sep, i, j);
        }
      }
      [head] + Split(s[i + |sep|..], sep)
  }

  /** Python's `sep.join(parts)`. */
  function JoinWith(parts: seq<string>, sep: string): string
    decreases |parts|
  {
    if |parts| == 0 then ""
    else if |parts| == 1 then parts[0]
    else parts[0] + sep + JoinWith(parts[1..], sep)
  }

  /** Python's `s.replace(pat, repl)` for a non-empty `pat`: cut at every
      leftmost, non-overlapping occurrence and glue with `repl`. */
  function Replace(s: string, pat: string, repl: string): string
    requires |pat| > 0
  {
    JoinWith(Split(s, pat), repl)
  }

  /** `s.split(sep)[k]`, None where Python raises IndexError. */
  function Field(s: string, sep: string, k: nat): Option<string>
    requires |sep| > 0
  {
    var parts := Split(s, sep);
    if k < |parts| then Some(parts[k]) else None
  }

  /** Two leftmost occurrences from the same start are the same index. */
  lemma FirstFromUnique(s: string, sep: string, lo: int, i: int, j: int)
    requires FirstFrom(s, sep, lo, i) && FirstFrom(s, sep, lo, j)
    ensures i == j
  {
  }

  /** `Find` returns the leftmost occurrence whenever there is one. */
  lemma FindIsFirst(s: string, sep: string, i: int)
    requires |sep| > 0
    requires FirstFrom(s, sep, 0, i)
    ensures Find(s, sep) == Some(i)
  {
    assert Contains(s, sep);
    FirstFromUnique(s, sep, 0, Find(s, sep).value, i);
  }

  /** One step of `Split`, at the leftmost occurrence. */
  lemma SplitAt(s: string, sep: string, i: nat)
    requires |sep| > 0
    requires Find(s, sep) == Some(i)
    ensures Split(s, sep) == [s[..i]] + Split(s[i + |sep|..], sep)
  {
  }

  /** Joining the pieces of a split with the same separator gives back the
      original text. */
  lemma {:induction false} JoinSplit(s: string, sep: string)
    requires |sep| > 0
    ensures JoinWith(Split(s, sep), sep) == s
    decreases |s|
  {
    var f := Find(s, sep);
    if f.Some? {
      var i := f.value;
      var tail := s[i + |sep|..];
      JoinSplit(tail, sep);
      SplitAt(s, sep, i);
      assert s[i..i + |sep|] == sep;
      assert s == s[..i] + sep + tail;
    }
  }

  /** A leftmost occurrence right after a separator-free, borderless prefix. */
  lemma FindAfterFreePrefix(a: string, sep: string, b: string)
    requires |sep| > 0 && Borderless(sep)
    requires !Contains(a, sep)
    ensures Find(a + sep + b, sep) == Some(|a|)
  {
    var s := a + sep + b;
    assert s[|a|..|a| + |sep|] == sep;
    forall j | 0 <= j < |a| ensures !OccursAt(s, sep, j) {
      if j + |sep| <= |a| {
        assert s[j..j + |sep|] == a[j..j + |sep|];
        assert !OccursAt(a, sep, j);
      } else {
        var m := |a| - j;
        var k := |sep| - m;
        assert s[j..j + |sep|][m..] == sep[..k];
        assert sep[..k] != sep[|sep| - k..];
      }
    }
    FindIsFirst(s, sep, |a|);
  }

  /** Splitting inverts joining: when the separator cannot overlap itself and
      no piece contains it, the split finds exactly the joined pieces. */
  lemma {:induction false} SplitJoin(parts: seq<string>, sep: string)
    requires |sep| > 0 && Borderless(sep)
    requires |parts| >= 1
    requires forall k :: 0 <= k < |parts| ==> !Contains(parts[k], sep)
    ensures Split(JoinWith(parts, sep), sep) == parts
    decreases |parts|
  {
    if |parts| == 1 {
      assert Find(parts[0], sep).None?;
    } else {
      var rest := JoinWith(parts[1..], sep);
      FindAfterFreePrefix(parts[0], sep, rest);
      var s := parts[0] + sep + rest;
      assert s[..|parts[0]|] == parts[0];
      assert s[|parts[0]| + |sep|..] == rest;
      SplitJoin(parts[1..], sep);
      assert parts == [parts[0]] + parts[1..];
    }
  }

  /** Every occurrence of a borderless placeholder is replaced and nothing
      else changes: a text assembled from placeholder-free pieces comes out
      as the same pieces glued with the replacement. */
  lemma ReplaceJoined(pieces: seq<string>, pat: string, repl: string)
    requires |pat| > 0 && Borderless(pat)
    requires |pieces| >= 1
    requires forall k :: 0 <= k < |pieces| ==> !Contains(pieces[k], pat)
    ensures Replace(JoinWith(pieces, pat), pat, repl) == JoinWith(pieces, repl)
  {
    SplitJoin(pieces, pat);
  }

  /** A text without the placeholder is left exactly as it is. */
  lemma ReplaceAbsent(s: string, pat: string, repl: string)
    requires |pat| > 0
    requires !Contains(s, pat)
    ensures Replace(s, pat, repl) == s
  {
    assert Find(s, pat).None?;
  }

  lemma FirstFromShift(s: string, sep: string, lo: nat, e: int)
    requires lo <= |s|
    requires FirstFrom(s, sep, lo, e)
    ensures FirstFrom(s[lo..], sep, 0, e - lo)
  {
    OccursAtShift(s, sep, lo, e - lo);
    forall j | 0 <= j < e - lo ensures !OccursAt(s[lo..], sep, j) {
      OccursAtShift(s, sep, lo, j);
    }
  }

  lemma NoneFromShift(s: string, sep: string, lo: nat)
    requires |sep| > 0 && lo <= |s|
    requires NoneBetween(s, sep, lo, |s|)
    ensures !Contains(s[lo..], sep)
  {
    forall j | 0 <= j <= |s| - lo ensures !OccursAt(s[lo..], sep, j) {
      OccursAtShift(s, sep, lo, j);
    }
  }

  /** The second field is the first field of the text after the first separator. */
  lemma SecondPartIsFirstOfTail(s: string, sep: string, i: nat)
    requires |sep| > 0
    requires Find(s, sep) == Some(i)
    ensures |Split(s, sep)| >= 2 && Split(s, sep)[1] == Split(s[i + |sep|..], sep)[0]
  {
    SplitAt(s, sep, i);
  }

  /** The first field runs up to the leftmost separator. */
  lemma FirstFieldToFind(s: string, sep: string, j: nat)
    requires |sep| > 0
    requires Find(s, sep) == Some(j)
    ensures Split(s, sep)[0] == s[..j]
  {
    SplitAt(s, sep, j);
  }

  lemma SecondFieldToNext(s: string, sep: string, i: nat, e: nat)
    requires |sep| > 0
    requires FirstFrom(s, sep, 0, i)
    requires FirstFrom(s, sep, i + |sep|, e)
    ensures Field(s, sep, 1) == Some(s[i + |sep|..e])
  {
    FindsOfFirsts(s, sep, i, e);
    SecondFieldOfFinds(s, sep, i, e);
  }

  lemma FindsOfFirsts(s: string, sep: string, i: nat, e: nat)
    requires |sep| > 0
    requires FirstFrom(s, sep, 0, i)
    requires FirstFrom(s, sep, i + |sep|, e)
    ensures i + |sep| <= e
    ensures Find(s, sep) == Some(i)
    ensures Find(s[i + |sep|..], sep) == Some(e - (i + |sep|))
  {
    FindIsFirst(s, sep, i);
    FirstFromShift(s, sep, i + |sep|, e);
    FindIsFirst(s[i + |sep|..], sep, e - (i + |sep|));
  }

  /** The second field, read off the first two `Find` results. */
  lemma SecondFieldOfFinds(s: string, sep: string, i: nat, e: nat)
    requires |sep| > 0 && i + |sep| <= e
    requires Find(s, sep) == Some(i)
    requires Find(s[i + |sep|..], sep) == Some(e - (i + |sep|))
    ensures e <= |s|
    ensures Field(s, sep, 1) == Some(s[i + |sep|..e])
  {
    var d := e - (i + |sep|);
    TailFindBound(s, sep, i, d);
    SecondFieldOfTail(s, sep, i, d);
    FieldEqual(s, sep, 1, s[i + |sep|..][..d], s[i + |sep|..e]);
  }

  lemma FieldEqual(s: string, sep: string, k: nat, x: string, y: string)
    requires |sep| > 0
    requires Field(s, sep, k) == Some(x) && x == y
    ensures Field(s, sep, k) == Some(y)
  {
  }

  lemma SecondFieldOfTail(s: string, sep: string, i: nat, d: nat)
    requires |sep| > 0
    requires Find(s, sep) == Some(i)
    requires Find(s[i + |sep|..], sep) == Some(d)
    ensures Field(s, sep, 1) == Some(s[i + |sep|..][..d])
  {
    SecondPartIsFirstOfTail(s, sep, i);
    FirstFieldOfTail(s, sep, i, d);
  }

  lemma TailFindBound(s: string, sep: string, i: nat, d: nat)
    requires |sep| > 0
    requires Find(s, sep) == Some(i)
    requires Find(s[i + |sep|..], sep) == Some(d)
    ensures i + |sep| + d <= |s|
  {
  }

  lemma FirstFieldOfTail(s: string, sep: string, i: nat, d: nat)
    requires |sep| > 0
    requires Find(s, sep) == Some(i)
    requires Find(s[i + |sep|..], sep) == Some(d)
    ensures Split(s[i + |sep|..], sep)[0] == s[i + |sep|..][..d]
  {
    FirstFieldToFind(s[i + |sep|..], sep, d);
  }


  lemma SecondFieldToEnd(s: string, sep: string, i: nat)
    requires |sep| > 0
    requires FirstFrom(s, sep, 0, i)
    requires NoneBetween(s, sep, i + |sep|, |s|)
    ensures Field(s, sep, 1) == Some(s[i + |sep|..])
  {
    FindIsFirst(s, sep, i);
    NoneFromShift(s, sep, i + |sep|);
    SecondFieldWhole(s, sep, i);
  }

  lemma SecondFieldWhole(s: string, sep: string, i: nat)
    requires |sep| > 0
    requires Find(s, sep) == Some(i)
    requires !Contains(s[i + |sep|..], sep)
    ensures Field(s, sep, 1) == Some(s[i + |sep|..])
  {
    SecondPartIsFirstOfTail(s, sep, i);
    SplitWhole(s[i + |sep|..], sep);
  }

  /** A text without the separator splits into itself alone. */
  lemma SplitWhole(s: string, sep: string)
    requires |sep| > 0
    requires !Contains(s, sep)
    ensures Split(s, sep) == [s]
  {
    assert Find(s, sep).None?;
  }

  /** The field after the first separator runs up to the next occurrence at
      or after its start, or to the end of the text when there is none. */
  lemma SecondFieldBetween(s: string, sep: string, i: nat, e: nat)
    requires |sep| > 0
    requires FirstFrom(s, sep, 0, i)
    requires FirstFrom(s, sep, i + |sep|, e) || (e == |s| && NoneBetween(s, sep, i + |sep|, |s|))
    ensures Field(s, sep, 1) == Some(s[i + |sep|..e])
  {
    if FirstFrom(s, sep, i + |sep|, e) {
      SecondFieldToNext(s, sep, i, e);
    } else {
      SecondFieldToEnd(s, sep, i);
      assert s[i + |sep|..] == s[i + |sep|..e];
    }
  }

  /** There is a second field exactly when the separator occurs at all. */
  lemma SecondFieldExists(s: string, sep: string)
    requires |sep| > 0
    ensures Field(s, sep, 1).Some? <==> Contains(s, sep)
  {
  }

  /** Python's `str.lower` restricted to ASCII letters. */
  function LowerChar(c: char): (d: char)
    ensures 'A' <= c <= 'Z' ==> d as int == c as int + 32
    ensures !('A' <= c <= 'Z') ==> d == c
  {
    if 'A' <= c <= 'Z' then (c as int + 32) as char else c
  }

  function Lower(s: string): (r: string)
    ensures |r| == |s|
    ensures forall i :: 0 <= i < |s| ==> r[i] == LowerChar(s[i])
  {
    seq(|s|, i requires 0 <= i < |s| => LowerChar(s[i]))
  }

  predicate IsLower(s: string) {
    forall i :: 0 <= i < |s| ==> !('A' <= s[i] <= 'Z')
  }

  /** Lower-casing leaves no upper-case letter and is idempotent. */
  lemma LowerIsLower(s: string)
    ensures IsLower(Lower(s))
    ensures Lower(Lower(s)) == Lower(s)
  {
  }
}

=== FILE: training.dfy ===
/** The data assembly and naming of `TrainAModelCreate.create`
    (`analytics/api_views.py`): one labelled polygon per sub-region of the
    requested image set, a pipeline fitted on their features, and the
    pickled model stored as `<image set name>.pkl`. */
module Training {
  import opened Wrappers
  import opened Hex
  import opened Http
  import opened Records
  import Lungmap

  type Vertex = (int, int)

  /** One training sample before feature extraction: the HSV image, the
      sub-region's outline and its anatomy name, the sample's label. */
  datatype Labelled = Labelled(hsv: Lungmap.Raster, polygon: seq<Vertex>, anatomyName: string)

  /** The numeric collaborators, left uninterpreted: reading the original
      file and converting it to HSV (`None` when OpenCV cannot), the
      feature generator, and fitting plus pickling the pipeline (`None`
      when it raises). */
  datatype Trainer<!F> = Trainer(
    loadHsv: seq<byte> -> Option<Lungmap.Raster>,
    features: Labelled -> F,
    fit: seq<F> -> Option<seq<byte>>)

  /** Every exception the view turns into a 400. */
  datatype TrainError =
    | NoImageSetField             // `request.data['imageset']` is absent
    | ImageSetDoesNotExist(id: nat)
    | NoImageFile(imageId: nat)   // `image_orig.path` with no file attached
    | Unreadable(imageId: nat)    // OpenCV could not read or convert it
    | NoTrainingRows              // `drop('label')` on an empty frame
    | FitFailed
    | Store(storeError: StoreError)

  datatype Outcome = Outcome(db: Db, response: Response<TrainedModel, TrainError>)

  /** The mask: the points' `(x, y)` pairs in retrieval order. */
  function Polygon(points: seq<Point>): (poly: seq<Vertex>)
    ensures |poly| == |points|
    ensures forall i :: 0 <= i < |points| ==> poly[i] == (points[i].x, points[i].y)
  {
    seq(|points|, i requires 0 <= i < |points| => (points[i].x, points[i].y))
  }

  /** The (image, sub-region) pairs the two nested loops visit, in order. */
  function Annotated(subregions: seq<Subregion>, images: seq<Image>): (pairs: seq<(Image, Subregion)>)
    ensures forall k :: 0 <= k < |pairs| ==>
      pairs[k].0 in images && pairs[k].1 in subregions && pairs[k].1.imageId == pairs[k].0.id
  {
    if |images| == 0 then []
    else
      var subs := SubregionsOf(subregions, images[0].id);
      seq(|subs|, j requires 0 <= j < |subs| => (images[0], subs[j])) + Annotated(subregions, images[1..])
  }

  /** The loops visit images in order and, for each image, its own
      sub-regions in retrieval order: one image gives a pair per sub-region
      pointing at it, and a split image list gives the two visits in
      sequence. With `SubregionsOfConcat` this fixes every visit. */
  lemma {:induction false} AnnotatedConcat(subregions: seq<Subregion>, a: seq<Image>, b: seq<Image>)
    ensures Annotated(subregions, []) == []
    ensures forall im: Image :: var subs := SubregionsOf(subregions, im.id);
      Annotated(subregions, [im]) == seq(|subs|, j requires 0 <= j < |subs| => (im, subs[j]))
    ensures Annotated(subregions, a + b) == Annotated(subregions, a) + Annotated(subregions, b)
    decreases |a|
  {
    forall im: Image ensures var subs := SubregionsOf(subregions, im.id);
      Annotated(subregions, [im]) == seq(|subs|, j requires 0 <= j < |subs| => (im, subs[j]))
    {
      assert [im][1..] == [];
    }
    if |a| > 0 {
      assert (a + b)[0] == a[0];
      assert (a + b)[1..] == a[1..] + b;
      AnnotatedConcat(subregions, a[1..], b);
    } else {
      assert a + b == b;
    }
  }

  /** The number of sub-regions whose image is one of `ids`. */
  function CountFor(subregions: seq<Subregion>, ids: set<nat>): nat {
    if |subregions| == 0 then 0
    else (if subregions[0].imageId in ids then 1 else 0) + CountFor(subregions[1..], ids)
  }

  function IdsOf(images: seq<Image>): set<nat> {
    set im | im in images :: im.id
  }

  lemma {:induction false} SubregionsOfCount(subregions: seq<Subregion>, id: nat)
    ensures |SubregionsOf(subregions, id)| == CountFor(subregions, {id})
    decreases |subregions|
  {
    if |subregions| > 0 {
      SubregionsOfCount(subregions[1..], id);
    }
  }

  lemma {:induction false} CountForNone(subregions: seq<Subregion>)
    ensures CountFor(subregions, {}) == 0
    decreases |subregions|
  {
    if |subregions| > 0 {
      CountForNone(subregions[1..]);
    }
  }

  lemma {:induction false} CountForUnion(subregions: seq<Subregion>, id: nat, ids: set<nat>)
    requires id !in ids
    ensures CountFor(subregions, {id} + ids) == CountFor(subregions, {id}) + CountFor(subregions, ids)
    decreases |subregions|
  {
    if |subregions| > 0 {
      CountForUnion(subregions[1..], id, ids);
    }
  }

  /** The rows visited are exactly the sub-regions hanging off the images:
      each is visited once, whichever order the images come in. */
  lemma {:induction false} AnnotatedCount(subregions: seq<Subregion>, images: seq<Image>)
    requires DistinctImageIds(images)
    ensures |Annotated(subregions, images)| == CountFor(subregions, IdsOf(images))
    decreases |images|
  {
    if |images| == 0 {
      assert IdsOf(images) == {};
      CountForNone(subregions);
    } else {
      var rest := images[1..];
      assert |Annotated(subregions, images)| ==
        |SubregionsOf(subregions, images[0].id)| + |Annotated(subregions, rest)|;
      assert DistinctImageIds(rest) by {
        forall i, j | 0 <= i < j < |rest| ensures rest[i].id != rest[j].id {
          assert rest[i] == images[i + 1] && rest[j] == images[j + 1];
        }
      }
      AnnotatedCount(subregions, rest);
      assert IdsOf(images) == {images[0].id} + IdsOf(rest) by {
        assert forall im :: im in images <==> im == images[0] || im in rest;
      }
      assert images[0].id !in IdsOf(rest) by {
        forall im | im in rest ensures im.id != images[0].id {
          var j :| 0 <= j < |rest| && rest[j] == im;
          assert images[j + 1] == im;
        }
      }
      CountForUnion(subregions, images[0].id, IdsOf(rest));
      SubregionsOfCount(subregions, images[0].id);
    }
  }

  /** An image is opened only when it has a sub-region. */
  predicate Loads(subregions: seq<Subregion>, im: Image) {
    |SubregionsOf(subregions, im.id)| > 0
  }

  /** Its original has a file attached and OpenCV can read it. */
  predicate Readable<F>(t: Trainer<F>, im: Image) {
    im.imageOrig.name != "" && t.loadHsv(im.imageOrig.content).Some?
  }

  /** The labelled polygons of `images`. Fails on the first image with a
      sub-region that cannot be opened; images without sub-regions are
      never opened. Otherwise row k belongs to the k-th visited pair: the
      image's HSV raster, the sub-region's points, its anatomy's name. */
  function LabelledRows<F>(db: Db, t: Trainer<F>, images: seq<Image>): (r: Result<seq<Labelled>, TrainError>)
    requires AnatomiesKnown(db)
    ensures r.Ok? <==> forall im :: im in images && Loads(db.subregions, im) ==> Readable(t, im)
    ensures r.Ok? ==> LabelsMatch(db, t, Annotated(db.subregions, images), r.value)
  {
    if |images| == 0 then Ok([])
    else
      var im := images[0];
      var subs := SubregionsOf(db.subregions, im.id);
      assert forall x :: x in images <==> x == im || x in images[1..];
      var head: Result<seq<Labelled>, TrainError> :=
        if |subs| == 0 then Ok([])
        else if im.imageOrig.name == "" then Err(NoImageFile(im.id))
        else match t.loadHsv(im.imageOrig.content)
          case None => Err(Unreadable(im.id))
          case Some(hsv) =>
            Ok(seq(|subs|, j requires 0 <= j < |subs| =>
              Labelled(hsv, Polygon(PointsOf(db.points, subs[j].id)), AnatomyName(db.anatomies, subs[j].anatomyId))));
      match head
      case Err(e) =>
        assert Loads(db.subregions, im) && !Readable(t, im);
        Err(e)
      case Ok(first) =>
        match LabelledRows(db, t, images[1..])
        case Err(e) => Err(e)
        case Ok(rest) =>
          LabelsMatchConcat(db, t, seq(|subs|, j requires 0 <= j < |subs| => (im, subs[j])),
            first, Annotated(db.subregions, images[1..]), rest);
          Ok(first + rest)
  }

  /** Row k belongs to the k-th visited pair: the image's HSV raster, the
      sub-region's points, its anatomy's name. */
  predicate LabelsMatch<F>(db: Db, t: Trainer<F>, pairs: seq<(Image, Subregion)>, rows: seq<Labelled>)
    requires AnatomiesKnown(db)
    requires forall k :: 0 <= k < |pairs| ==> pairs[k].1 in db.subregions
  {
    && |rows| == |pairs|
    && forall k :: 0 <= k < |rows| ==>
      && Some(rows[k].hsv) == t.loadHsv(pairs[k].0.imageOrig.content)
      && rows[k].polygon == Polygon(PointsOf(db.points, pairs[k].1.id))
      && rows[k].anatomyName == AnatomyName(db.anatomies, pairs[k].1.anatomyId)
  }

  lemma LabelsMatchConcat<F>(db: Db, t: Trainer<F>, p1: seq<(Image, Subregion)>, r1: seq<Labelled>,
                             p2: seq<(Image, Subregion)>, r2: seq<Labelled>)
    requires AnatomiesKnown(db)
    requires forall k :: 0 <= k < |p1| ==> p1[k].1 in db.subregions
    requires forall k :: 0 <= k < |p2| ==> p2[k].1 in db.subregions
    requires LabelsMatch(db, t, p1, r1) && LabelsMatch(db, t, p2, r2)
    ensures forall k :: 0 <= k < |p1 + p2| ==> (p1 + p2)[k].1 in db.subregions
    ensures LabelsMatch(db, t, p1 + p2, r1 + r2)
  {
    var p, r := p1 + p2, r1 + r2;
    forall k | 0 <= k < |p| ensures p[k].1 in db.subregions {
      if k < |p1| { assert p[k] == p1[k]; } else { assert p[k] == p2[k - |p1|]; }
    }
    forall k | 0 <= k < |r|
      ensures Some(r[k].hsv) == t.loadHsv(p[k].0.imageOrig.content)
      ensures r[k].polygon == Polygon(PointsOf(db.points, p[k].1.id))
      ensures r[k].anatomyName == AnatomyName(db.anatomies, p[k].1.anatomyId)
    {
      if k < |p1| {
        assert p[k] == p1[k] && r[k] == r1[k];
      } else {
        assert p[k] == p2[k - |p1|] && r[k] == r2[k - |p1|];
      }
    }
  }

  /** The feature frame, one row per labelled polygon. */
  function Features<F>(t: Trainer<F>, rows: seq<Labelled>): (data: seq<F>)
    ensures |data| == |rows|
    ensures forall k :: 0 <= k < |rows| ==> data[k] == t.features(rows[k])
  {
    seq(|rows|, k requires 0 <= k < |rows| => t.features(rows[k]))
  }

  /** What a successful request trains on. */
  predicate Trains<F>(db: Db, t: Trainer<F>, imageSetId: nat)
    requires AnatomiesKnown(db)
  {
    var rows := LabelledRows(db, t, ImagesOfSet(db.images, imageSetId));
    && rows.Ok?
    && |rows.value| > 0
    && t.fit(Features(t, rows.value)).Some?
  }

  /** `TrainAModelCreate.create`. Every failure — a missing field, an
      unknown set, an unreadable image, no sub-regions at all, a failing
      fit, a second model for the set — is a 400 that leaves the store as
      it was; success inserts one trained model, named after the set, whose
      bytes are the fitted pipeline over one row per sub-region of the set. */
  function Create<F>(db: Db, t: Trainer<F>, imageset: Option<nat>): (out: Outcome)
    requires Valid(db)
    ensures Valid(out.db)
    ensures out.response.Created201? || out.response.BadRequest400?
    ensures out.response.BadRequest400? ==> out.db == db
    ensures imageset.None? ==> out.response == BadRequest400(NoImageSetField)
    ensures imageset.Some? && !ImageSetIdIn(db.imageSets, imageset.value) ==>
      out.response == BadRequest400(ImageSetDoesNotExist(imageset.value))
    ensures out.response.Created201? <==>
      && imageset.Some?
      && ImageSetIdIn(db.imageSets, imageset.value)
      && Trains(db, t, imageset.value)
      && !TrainedModelFor(db.trainedModels, imageset.value)
    ensures out.response.Created201? ==>
      var s := db.imageSets[FindImageSet(db.imageSets, imageset.value).value];
      var rows := LabelledRows(db, t, ImagesOfSet(db.images, s.id)).value;
      && s.id == imageset.value
      && out.response.body == TrainedModel(NextTrainedModelId(db.trainedModels), s.id,
           FieldFile(s.imageSetName + ".pkl", t.fit(Features(t, rows)).value))
      && out.db == db.(trainedModels := db.trainedModels + [out.response.body])
      && |rows| == CountFor(db.subregions, IdsOf(ImagesOfSet(db.images, s.id)))
  {
    if imageset.None? then Outcome(db, BadRequest400(NoImageSetField))
    else
      var id := imageset.value;
      match FindImageSet(db.imageSets, id)
      case None => Outcome(db, BadRequest400(ImageSetDoesNotExist(id)))
      case Some(i) => TrainSet(db, t, db.imageSets[i])
  }

  /** `create` once the image set is found: train on its images and store
      the pickled pipeline. */
  function TrainSet<F>(db: Db, t: Trainer<F>, s: ImageSet): (out: Outcome)
    requires Valid(db) && s in db.imageSets
    ensures Valid(out.db)
    ensures out.response.Created201? || out.response.BadRequest400?
    ensures out.response.BadRequest400? ==> out.db == db
    ensures out.response.Created201? <==> Trains(db, t, s.id) && !TrainedModelFor(db.trainedModels, s.id)
    ensures out.response.Created201? ==>
      var rows := LabelledRows(db, t, ImagesOfSet(db.images, s.id)).value;
      && out.response.body == TrainedModel(NextTrainedModelId(db.trainedModels), s.id,
           FieldFile(s.imageSetName + ".pkl", t.fit(Features(t, rows)).value))
      && out.db == db.(trainedModels := db.trainedModels + [out.response.body])
      && |rows| == CountFor(db.subregions, IdsOf(ImagesOfSet(db.images, s.id)))
  {
    var images := ImagesOfSet(db.images, s.id);
    match LabelledRows(db, t, images)
    case Err(e) => Outcome(db, BadRequest400(e))
    case Ok(rows) =>
      if |rows| == 0 then Outcome(db, BadRequest400(NoTrainingRows))
      else
        match t.fit(Features(t, rows))
        case None => Outcome(db, BadRequest400(FitFailed))
        case Some(pickled) =>
          RowPerSubregion(db, t, s.id);
          StoreModel(db, s, pickled)
  }

  /** One labelled row per sub-region of the set's images. */
  lemma RowPerSubregion<F>(db: Db, t: Trainer<F>, imageSetId: nat)
    requires Valid(db)
    ensures LabelledRows(db, t, ImagesOfSet(db.images, imageSetId)).Ok? ==>
      |LabelledRows(db, t, ImagesOfSet(db.images, imageSetId)).value|
      == CountFor(db.subregions, IdsOf(ImagesOfSet(db.images, imageSetId)))
  {
    assert DistinctImageIds(db.images) by {
      assert ImagesOk(db.images, db.imageSets, db.experiments);
    }
    ImagesOfSetDistinct(db.images, imageSetId);
    AnnotatedCount(db.subregions, ImagesOfSet(db.images, imageSetId));
  }

  /** The insert at the end of `create`: the pickled pipeline as a new
      trained model for the set, unless the set already has one. */
  function StoreModel(db: Db, s: ImageSet, pickled: seq<byte>): (out: Outcome)
    requires Valid(db) && s in db.imageSets
    ensures Valid(out.db)
    ensures out.response.Created201? || out.response.BadRequest400?
    ensures out.response.BadRequest400? ==> out.db == db
    ensures out.response.Created201? <==> !TrainedModelFor(db.trainedModels, s.id)
    ensures out.response.Created201? ==>
      && out.response.body == TrainedModel(NextTrainedModelId(db.trainedModels), s.id,
           FieldFile(s.imageSetName + ".pkl", pickled))
      && out.db == db.(trainedModels := db.trainedModels + [out.response.body])
  {
    var file := FieldFile(s.imageSetName + ".pkl", pickled);
    assert ImageSetIdIn(db.imageSets, s.id);
    match InsertTrainedModel(db, s.id, file)
    case Err(e) => Outcome(db, BadRequest400(TrainError.Store(e)))
    case Ok(db') => Outcome(db', Created201(TrainedModel(NextTrainedModelId(db.trainedModels), s.id, file)))
  }
}

=== FILE: wrappers.dfy ===
/** Failure-compatible wrappers used throughout the model: `Option` for values
    that may be absent (a SQL NULL, a missing lookup) and `Result` for the
    exceptions the Python code raises. */
module Wrappers {

  datatype Option<+T> = None | Some(value: T)

  datatype Result<+T, +E> = Ok(value: T) | Err(error: E) {

    predicate IsFailure() {
      Err?
    }

    function PropagateFailure<U>(): Result<U, E>
      requires Err?
    {
      Err(error)
    }

    function Extract(): T
      requires Ok?
    {
      value
    }
  }
}
